=== FILE: README.md ===
# Personal-finance dashboard: derivation layer and record store

This project models the computational core of a personal-finance dashboard
in Dafny and proves properties of it. The core has two parts.

- **The dashboard's derivation layer** (`src/pages/Index.tsx`). It turns the
  accounts, transactions, budgets and goals on the page into the figures
  shown: total balance, income and expenses of the month, each budget's
  utilization and badges, each category's share of spending, each goal's
  progress, and the sign before a transaction amount.
- **The finance API's record store** (`backend/finance-api/index.py`). This
  is an abstract state of tables, not SQL. It covers request dispatch on
  (method, action), recording a transaction and its balance effect, creating
  accounts and goals, the budget upsert on (category, month, year), the goal
  completion rule, and the read queries (open goals, budgets of the period,
  the dashboard's budget lines).

Money is an exact decimal (`real`) throughout. The three percentages of the
page (`spent / limit * 100`, `spent / totalSpent * 100`,
`current / target * 100`) share one definition, `Percentages.Percent`. Lemmas
turn its thresholds into comparisons of the amounts themselves. For example,
"over 100%" is `spent > limit`, and "over 80%" is `100 * spent > 80 * limit`.

Modules, leaves first:

| file | module | models |
|---|---|---|
| maybe.dfy | `Maybe` | optional request fields, handler results |
| calendar.dfy | `Calendar` | dates as (year, month, day) |
| real_sums.dfy | `RealSums` | exact sums and their algebra |
| percentages.dfy | `Percentages` | the percentage formula and its threshold facts |
| dashboard_data.dfy | `DashboardData` | the page's Account, Transaction, Budget, Goal |
| totals.dfy | `Totals` | total balance, month filter, monthly flows |
| budget_utilization.dfy | `BudgetUtilization` | utilization, badges, progress bar, remaining |
| category_share.dfy | `CategoryShare` | share of total spending |
| goal_progress.dfy | `GoalProgress` | goal progress, amount sign |
| dashboard_view.dfy | `DashboardView` | all page figures for one snapshot |
| store_data.dfy | `StoreData` | tables, serial ids, validity, budget key lookup |
| store_updates.dfy | `StoreUpdates` | the API's writes |
| store_queries.dfy | `StoreQueries` | the API's reads |
| finance_api.dfy | `FinanceApi` | routing, request bodies, responses |

Three behaviours of the page shape the model's preconditions and lemmas:

- The month filter compares only the month number (`Index.tsx:76`, `:79`).
  A transaction from the same month of another year counts.
  `Totals.MonthFlowIgnoresYear` proves that the year plays no part.
- The category share divides by the total spent without a guard
  (`Index.tsx:360`). The model requires a non-zero total whenever there is
  at least one line.
- The budget and goal percentages divide by the limit and the target
  without a guard (`Index.tsx:206`, `:314`). A zero divisor gives NaN or
  Infinity. A negative one gives finite but meaningless figures: a limit
  of -100 with 50 spent gives a utilization of -50 (the bar's value), no
  badge, and 150% left. The model
  requires positive limits and targets (see "Left out").

## Model

| member | source | states |
|---|---|---|
| `Totals.ComputeTotalBalance` | src/pages/Index.tsx:74 | the reduce from 0, taken left to right, yields the sum of every account's balance; no accounts give 0 |
| `Totals.TotalBalanceOrderFree` | src/pages/Index.tsx:74 | the total balance is the same for any ordering of the same accounts |
| `Totals.TotalBalanceExample` | src/pages/Index.tsx:47-49 | balances 245680, 520000 and 15000 total exactly 780680, with no rounding |
| `Totals.MonthTransactions` | src/pages/Index.tsx:75-79 | the month filter keeps exactly the transactions of the given type whose month number matches; the result is a sub-multiset of the input and never longer |
| `Totals.MonthTransactionsCounts` | src/pages/Index.tsx:75-79 | the filter is exact as a multiset: each matching transaction keeps every one of its copies, and a non-matching one has none |
| `Totals.MonthFlowCons` | src/pages/Index.tsx:75-80 | a monthly flow grows by a transaction's amount exactly when that transaction passes the filter |
| `Totals.MonthIncomePlusExpenses` | src/pages/Index.tsx:75-80 | the income and expense filters split the month's transactions, so the two flows add up to everything dated in that month number |
| `Totals.MonthFlowNonNegative` | src/pages/Index.tsx:75-80 | with non-negative amounts, each monthly flow is non-negative |
| `Totals.MonthFlowIgnoresYear` | src/pages/Index.tsx:76 | moving every transaction to another year changes neither flow: the filter does not compare years |
| `Totals.LastYearCountsThisMonth` | src/pages/Index.tsx:76 | an expense from January of last year counts toward this January's expenses |
| `BudgetUtilization.Utilization` | src/pages/Index.tsx:206 | the uncapped percentage times the limit is a hundred times the spent amount; it is over 100 iff spent > limit, over 80 iff 100·spent > 80·limit, exactly 100 iff spent = limit, 0 iff nothing is spent; it needs a positive limit |
| `BudgetUtilization.IsOverBudget` | src/pages/Index.tsx:207 | the over-budget flag is set exactly when spent > limit |
| `BudgetUtilization.IsNearLimit` | src/pages/Index.tsx:208 | the near-limit flag is set exactly when 100·spent > 80·limit and spent ≤ limit |
| `BudgetUtilization.BadgesExclusive` | src/pages/Index.tsx:207-208 | the two flags are never both set, and spent = 0 sets neither |
| `BudgetUtilization.ProgressValue` | src/pages/Index.tsx:229 | the bar value never exceeds 100; below the limit it equals the uncapped percentage; at or past the limit it is 100 |
| `BudgetUtilization.Remaining` | src/pages/Index.tsx:233 | the amount left is ≥ 0 and ≥ limit − spent, equals limit − spent up to the limit, and is 0 iff the limit is reached |
| `BudgetUtilization.RemainingPercent` | src/pages/Index.tsx:233 | the percent left is ≥ 0, is 0 when over budget, equals the amount left as a percentage of the limit, and added to the bar value always gives 100 |
| `BudgetUtilization.UtilizationExamples` | src/pages/Index.tsx:206-233 | 150 of 100 is 150%, over budget, with nothing left; 85 of 100 is near the limit; 80 of 100 is neither (80 is excluded) |
| `CategoryShare.Shares` | src/pages/Index.tsx:358-360 | one share per budget line, each the line's spent as a percentage of the total (share·total = 100·spent); the division needs a non-zero total only when there is at least one line |
| `CategoryShare.SharesSumTo100` | src/pages/Index.tsx:359-360 | with a non-zero total, the shares of all lines sum to exactly 100 |
| `CategoryShare.SharesBounded` | src/pages/Index.tsx:359-360 | with non-negative spending, each share lies in [0, 100] and is 0 iff its line spent nothing |
| `CategoryShare.ShareExample` | src/pages/Index.tsx:359-360 | lines that spent 30 and 70 get shares 30 and 70 |
| `GoalProgress.Progress` | src/pages/Index.tsx:314 | progress is uncapped: over 100 iff current > target, exactly 100 iff they are equal, ≥ 0 iff current ≥ 0, and progress·target = 100·current |
| `GoalProgress.OverFundedExample` | src/pages/Index.tsx:314 | 250000 saved toward 200000 is 125% |
| `GoalProgress.AmountSign` | src/pages/Index.tsx:265 | the sign is `+` exactly for income and the minus sign U+2212 exactly for an expense |
| `DashboardView.BuildView` | src/pages/Index.tsx:74-360 | every field is its component's figure: total balance, the income and the expense flow, each budget's status (utilization, badges, bar, amount and percent left), the shares, each goal's progress; hence income plus expenses equal the month's turnover, each budget's badges are exclusive and its bar plus percent left = 100, shares sum to 100, and a goal's progress is above 100 iff it is over-funded |
| `FinanceApi.RouteOf` | backend/finance-api/index.py:18-77 | OPTIONS is the preflight whatever the action; a (method, action) pair reaches a handler iff it is in the routing table; every other action under GET, POST or PUT is "Unknown action"; any other method is "Method not allowed" |
| `FinanceApi.GetActions` | backend/finance-api/index.py:36-50 | GET reaches a handler for exactly six actions: dashboard, accounts, transactions, budgets, goals, categories |
| `FinanceApi.WriteActions` | backend/finance-api/index.py:52-74 | POST accepts exactly transaction, account, goal and budget; PUT accepts exactly goal and budget; any other action is "Unknown action" |
| `FinanceApi.HandleAddTransaction` | backend/finance-api/index.py:207-236 | fails iff type, amount, category_id or account_id is absent, with the text of the first missing key in that order; otherwise it is the recording of the transaction (balance effect included), with the returned id, an empty description by default and today's date by default |
| `FinanceApi.HandleAddAccount` | backend/finance-api/index.py:239-249 | fails iff name or type is absent, with the text of the first missing key; otherwise its store is exactly the account insert, with the balance defaulting to 0 and nothing else changed |
| `FinanceApi.HandleAddGoal` | backend/finance-api/index.py:252-267 | fails iff name, target_amount or icon is absent, with the text of the first missing key; otherwise its store is exactly the goal insert of an open goal, with the saved amount defaulting to 0 and nothing else changed |
| `FinanceApi.HandleAddBudget` | backend/finance-api/index.py:270-287 | fails iff category_id or limit_amount is absent, with the text of the first missing key; otherwise its store is the upsert, with month and year defaulting to the current ones, and a row with the returned id and new limit exists |
| `FinanceApi.HandleUpdateGoal` | backend/finance-api/index.py:290-301 | fails iff current_amount or id is absent, with the text of the first missing key; otherwise its store is the goal update and it answers success |
| `FinanceApi.HandleUpdateBudget` | backend/finance-api/index.py:304-314 | fails iff limit_amount or id is absent, with the text of the first missing key; otherwise its store is the limit update and it answers success |
| `FinanceApi.Run` | backend/finance-api/index.py:36-77 | each read leaves the store unchanged, succeeds, and answers its query: the accounts, transactions and categories tables, the dashboard with this month's budget lines, the budgets report for this month, and the goals listing that is exactly the open-goal filter (hence every open goal, once per row, and no completed one); each write is its handler; every handler keeps a valid store valid |
| `FinanceApi.Handle` | backend/finance-api/index.py:11-99 | status is 200 or 500; OPTIONS answers 200 with an empty body; a rejected route answers 200 with its message and changes nothing; a routed request takes its handler's store and payload with 200 when the handler succeeds, and answers 500 with the error and the old store when it fails; GET (also the default) changes nothing; validity is preserved |
| `StoreData.FindBudget` | backend/finance-api/index.py:273-275 | finds the first budget row with the (category, month, year) key, or reports that no row has it |
| `StoreData.FindBudgetUnique` | backend/finance-api/index.py:275 | with unique keys, the row found is the one row that has the key |
| `StoreUpdates.RecordTransaction` | backend/finance-api/index.py:207-236 | appends the transaction under a fresh id; a row with the referenced account id gains the amount for type `income` and loses it for any other type; other accounts and tables are unchanged; validity is kept; of the id sequences only its own advances, by one |
| `StoreUpdates.RecordTransactionMovesTotal` | backend/finance-api/index.py:224-233 | the money over all accounts moves by the signed amount when the account exists, and not at all when it does not |
| `StoreUpdates.CreateAccount` | backend/finance-api/index.py:239-249 | appends one account under a fresh id; nothing else changes; of the id sequences only its own advances, by one |
| `StoreUpdates.CreateGoal` | backend/finance-api/index.py:252-267 | appends one goal under a fresh id, not completed even if already funded; nothing else changes; of the id sequences only its own advances, by one |
| `StoreUpdates.UpsertBudget` | backend/finance-api/index.py:270-287 | afterwards exactly one row has the key (given unique keys before), holding the new limit and the returned id; a new row is added iff none had the key; other rows, ids and keys are kept; the budget id sequence advances by one whether a row is inserted or updated, and no other sequence moves |
| `StoreUpdates.UpsertBudgetIdempotent` | backend/finance-api/index.py:272-277 | repeating the same upsert leaves every row as it was and returns the same id; only the id sequence moves on |
| `StoreUpdates.UpsertInserts` | backend/finance-api/index.py:272-277 | when no row has the key, the upsert appends a row under the next sequence value and returns it |
| `StoreUpdates.UpsertUpdates` | backend/finance-api/index.py:275-277 | when a row has the key, the upsert rewrites only that row's limit, returns its id, and the sequence still advances |
| `StoreUpdates.UpsertDrawsAnId` | backend/finance-api/index.py:272-277 | from an empty store, a new key gets id 1, upserting it again returns 1, and the next new key gets id 3, not 2 |
| `StoreUpdates.UpdateGoal` | backend/finance-api/index.py:290-301 | rows with the id get the new saved amount and are marked completed iff it reaches their target, cleared otherwise; other rows and tables are unchanged; no id sequence moves |
| `StoreUpdates.UpdateBudget` | backend/finance-api/index.py:304-314 | rows with the id get the new limit; keys and ids stay, so a valid store stays valid; no id sequence moves |
| `StoreQueries.OpenGoals` | backend/finance-api/index.py:195-198 | lists exactly the goals that are not completed |
| `StoreQueries.OpenGoalsCounts` | backend/finance-api/index.py:197 | the listing is exact as a multiset: every copy of an open goal row, and no completed row |
| `StoreQueries.UpdatedGoalListing` | backend/finance-api/index.py:293-297 | after an update, a goal is listed iff its new saved amount is below its target |
| `StoreQueries.CategorySpentAppend` | backend/finance-api/index.py:128-135 | a new transaction adds its amount to the spent of the category and period it is an expense of, and to no other |
| `StoreQueries.CategorySpentNonNegative` | backend/finance-api/index.py:128 | spent over non-negative amounts is non-negative |
| `StoreQueries.RecordExpenseRaisesSpent` | backend/finance-api/index.py:224-233 | recording an expense raises its own category's spent for its month and year by the amount, and leaves every other category and period as it was |
| `StoreQueries.LimitFor` | backend/finance-api/index.py:127-131 | the limit is 0 when the category has no budget row for the period; with unique keys it is that row's limit |
| `StoreQueries.DashboardBudgets` | backend/finance-api/index.py:123-140 | the dashboard's budget lines: never more than the categories, each with a limit > 0 and no budget id |
| `StoreQueries.DashboardBudgetsSound` | backend/finance-api/index.py:129-138 | every dashboard line is the line of an expense category whose limit for the period is > 0 |
| `StoreQueries.DashboardBudgetsComplete` | backend/finance-api/index.py:129-138 | every expense category whose limit for the period is > 0 has its line on the dashboard |
| `StoreQueries.FindCategory` | backend/finance-api/index.py:183 | finds a category with the id, or reports that no category has it |
| `StoreQueries.PeriodBudgets` | backend/finance-api/index.py:170-192 | the budgets report: never more lines than budget rows, each carrying a budget id |
| `StoreQueries.PeriodBudgetsSound` | backend/finance-api/index.py:182-188 | every report line is the line of a budget row of the period whose category exists, with that row's id and limit |
| `StoreQueries.PeriodBudgetsComplete` | backend/finance-api/index.py:182-188 | every budget row of the period whose category exists has its line in the report |
| `StoreQueries.ReportsAgree` | backend/finance-api/index.py:123-191 | in a valid store, a period budget's dashboard line and its budgets-report line have the same limit and spent; it appears on the dashboard when it is an expense category with a positive limit |

## Left out

- Rendering is not modelled: JSX, layout, dialogs, the add-transaction form, badges, icons and CSS classes. They are presentation only.
- Number and date formatting is not modelled: `formatCurrency` (`Intl.NumberFormat`), `toLocaleDateString`, and the rounding of `toFixed(0)`. They are locale library calls.
- Date parsing (`new Date(...)`, `getMonth`, `datetime.now()`) is not modelled. Dates are given with year, month and day already extracted, and the current date and time are parameters.
- Floating-point behaviour is not modelled. A zero limit, target or total spent would give NaN or Infinity in the page. These cases are excluded by preconditions.
- BudgetUtilization.Utilization: requires a positive limit. This also excludes negative limits, where the page computes finite figures (limit -100, spent 50: a utilization of -50 as the bar's value, no badge, and 150% left). The same precondition carries over to IsOverBudget, IsNearLimit, ProgressValue and RemainingPercent.
- GoalProgress.Progress: requires a positive target. This also excludes negative targets, where the page shows a finite, negative or inverted percentage.
- The page holds fixed sample data and never fetches it. So it has no load, no failure state and no error value for degenerate inputs.
- `src/lib/api.ts` is HTTP transport and JSON decoding. The request body arrives already decoded into optional fields (`FinanceApi.Body`).
- Database plumbing is not modelled: connection, cursor, commit, CORS header contents, and JSON serialization of responses.
- FinanceApi.Handle: only a missing required key is modelled as the exception-to-500 path. Database errors, malformed JSON and values of the wrong type, which also lead to 500, are not.
- `ORDER BY` and `LIMIT` clauses are not modelled. Queries return rows in table order, and the dashboard and transactions list return all transactions, not the latest 10 or 50.
- Joined display columns (`category_name`, `category_icon`, `account_name`) and `created_at` timestamps are not modelled.
- The database schema's foreign keys are not modelled. A transaction for an unknown account is recorded, and no balance changes.
- Idempotence of building the view needs no lemma. Every function here is deterministic, so the same snapshot gives the same view.

=== FILE: budget_utilization.dfy ===
/** Per-budget figures on the dashboard (src/pages/Index.tsx:206-233): the
    utilization percentage, the over-budget and near-limit flags, the capped
    progress-bar value and what is left of the limit. The percentage needs a
    positive limit; the page divides without a guard. */
module BudgetUtilization {
  import opened Percentages
  import opened DashboardData

  /** Spent as a percentage of the limit, uncapped. Its thresholds are
      comparisons of the amounts themselves. */
  function Utilization(b: Budget): (p: real)
    requires b.limit > 0.0
    ensures p > 100.0 <==> b.spent > b.limit
    ensures p > 80.0 <==> 100.0 * b.spent > 80.0 * b.limit
    ensures p == 100.0 <==> b.spent == b.limit
    ensures p == 0.0 <==> b.spent == 0.0
    ensures p >= 0.0 <==> b.spent >= 0.0
    ensures p * b.limit == 100.0 * b.spent
  {
    PercentTimesWhole(b.spent, b.limit);
    PercentAbove(b.spent, b.limit, 100.0);
    PercentAbove(b.spent, b.limit, 80.0);
    PercentEquals(b.spent, b.limit, 100.0);
    PercentEquals(b.spent, b.limit, 0.0);
    PercentAbove(b.spent, b.limit, 0.0);
    Percent(b.spent, b.limit)
  }

  /** The over-budget badge: shown exactly when more than the limit is spent. */
  function IsOverBudget(b: Budget): (over: bool)
    requires b.limit > 0.0
    ensures over <==> b.spent > b.limit
  {
    Utilization(b) > 100.0
  }

  /** The near-limit badge: shown exactly when more than 80% but no more than
      the whole limit is spent. */
  function IsNearLimit(b: Budget): (near: bool)
    requires b.limit > 0.0
    ensures near <==> 100.0 * b.spent > 80.0 * b.limit && b.spent <= b.limit
  {
    var p := Utilization(b);
    p > 80.0 && p <= 100.0
  }

  /** The two badges are never shown together, and a budget with nothing
      spent shows neither. */
  lemma BadgesExclusive(b: Budget)
    requires b.limit > 0.0
    ensures !(IsOverBudget(b) && IsNearLimit(b))
    ensures b.spent == 0.0 ==> !IsOverBudget(b) && !IsNearLimit(b)
  {
  }

  /** The progress-bar value: the utilization capped at 100. Up to the limit
      it is the utilization itself; at or past the limit it is exactly 100. */
  function ProgressValue(b: Budget): (v: real)
    requires b.limit > 0.0
    ensures v <= 100.0
    ensures b.spent <= b.limit ==> v == Utilization(b)
    ensures b.spent >= b.limit ==> v == 100.0
    ensures b.spent >= 0.0 ==> v >= 0.0
  {
    var p := Utilization(b);
    if p < 100.0 then p else 100.0
  }

  /** The amount left: the unspent part of the limit, and 0 once the limit
      is reached or passed. */
  function Remaining(b: Budget): (left: real)
    ensures left >= 0.0
    ensures left >= b.limit - b.spent
    ensures b.spent <= b.limit ==> left == b.limit - b.spent
    ensures left == 0.0 <==> b.spent >= b.limit
  {
    if 0.0 > b.limit - b.spent then 0.0 else b.limit - b.spent
  }

  /** The percent left, `max(0, 100 - utilization)`: never negative, 0 when
      over budget, the amount left as a percentage of the limit, and
      together with the progress-bar value always exactly 100. */
  function RemainingPercent(b: Budget): (left: real)
    requires b.limit > 0.0
    ensures left >= 0.0
    ensures IsOverBudget(b) ==> left == 0.0
    ensures left == Percent(Remaining(b), b.limit)
    ensures left + ProgressValue(b) == 100.0
  {
    var p := Utilization(b);
    PercentAdd(b.limit - b.spent, b.spent, b.limit);
    PercentOfWhole(b.limit);
    PercentEquals(0.0, b.limit, 0.0);
    if 0.0 > 100.0 - p then 0.0 else 100.0 - p
  }

  /** Worked cases: 150 of 100 is over with nothing left; 85 of 100 is near
      the limit; 80 of 100 is neither, since the 80% boundary is exclusive. */
  lemma UtilizationExamples()
    ensures Utilization(Budget("food", 100.0, 150.0, "")) == 150.0
    ensures IsOverBudget(Budget("food", 100.0, 150.0, ""))
    ensures Remaining(Budget("food", 100.0, 150.0, "")) == 0.0
    ensures RemainingPercent(Budget("food", 100.0, 150.0, "")) == 0.0
    ensures IsNearLimit(Budget("food", 100.0, 85.0, ""))
    ensures !IsNearLimit(Budget("food", 100.0, 80.0, "")) && !IsOverBudget(Budget("food", 100.0, 80.0, ""))
  {
  }
}

=== FILE: calendar.dfy ===
/** Calendar dates as plain integer fields. Parsing date text is not modelled:
    a date arrives with its year, month and day already extracted. */
module Calendar {

  /** A calendar day. `month` is compared only for equality, so whether it
      counts from 0 (JavaScript's `getMonth`) or from 1 (SQL's `EXTRACT`) does
      not matter, as long as one convention is used throughout. */
  datatype Date = Date(year: int, month: int, day: int)

  /** True when the date lies in the given calendar month of the given year. */
  predicate InPeriod(d: Date, month: int, year: int) {
    d.month == month && d.year == year
  }
}

=== FILE: category_share.dfy ===
/** The spending-analytics tab (src/pages/Index.tsx:358-371): each budget
    line's spent amount as a percentage of what all lines spent together. */
module CategoryShare {
  import opened RealSums
  import opened Percentages
  import opened DashboardData

  function SpentAmounts(budgets: seq<Budget>): seq<real>
  {
    seq(|budgets|, i requires 0 <= i < |budgets| => budgets[i].spent)
  }

  /** What all budget lines spent together. */
  function TotalSpent(budgets: seq<Budget>): real
  {
    Sum(SpentAmounts(budgets))
  }

  /** Every line's share of the total, position by position. An empty list of
      lines divides by nothing; otherwise the total must not be 0, as the
      page divides by it unguarded. */
  function Shares(budgets: seq<Budget>): (shares: seq<real>)
    requires |budgets| > 0 ==> TotalSpent(budgets) != 0.0
    ensures |shares| == |budgets|
    ensures forall i :: 0 <= i < |budgets| ==> shares[i] * TotalSpent(budgets) == 100.0 * budgets[i].spent
  {
    if |budgets| == 0 then []
    else
      SharesScaleBack(budgets);
      PercentsOf(SpentAmounts(budgets), TotalSpent(budgets))
  }

  /** Each share, scaled by the total, gives back a hundred times its line's spent. */
  lemma SharesScaleBack(budgets: seq<Budget>)
    requires TotalSpent(budgets) != 0.0
    ensures forall i :: 0 <= i < |budgets| ==>
      PercentsOf(SpentAmounts(budgets), TotalSpent(budgets))[i] * TotalSpent(budgets) == 100.0 * budgets[i].spent
  {
    forall i | 0 <= i < |budgets|
      ensures PercentsOf(SpentAmounts(budgets), TotalSpent(budgets))[i] * TotalSpent(budgets) == 100.0 * budgets[i].spent
    {
      PercentTimesWhole(budgets[i].spent, TotalSpent(budgets));
    }
  }

  /** The shares of all lines add up to exactly 100. */
  lemma SharesSumTo100(budgets: seq<Budget>)
    requires |budgets| > 0 && TotalSpent(budgets) != 0.0
    ensures Sum(Shares(budgets)) == 100.0
  {
    SumOfPercents(SpentAmounts(budgets), TotalSpent(budgets));
  }

  /** With nothing spent negatively, every share lies between 0 and 100, and a
      share is 0 exactly when its line spent nothing. */
  lemma SharesBounded(budgets: seq<Budget>, i: int)
    requires forall j :: 0 <= j < |budgets| ==> budgets[j].spent >= 0.0
    requires TotalSpent(budgets) > 0.0
    requires 0 <= i < |budgets|
    ensures 0.0 <= Shares(budgets)[i] <= 100.0
    ensures Shares(budgets)[i] == 0.0 <==> budgets[i].spent == 0.0
  {
    var total := TotalSpent(budgets);
    var xs := SpentAmounts(budgets);
    SumRemove(xs, i);
    var others := xs[..i] + xs[i + 1..];
    assert forall j :: 0 <= j < |others| ==> others[j] >= 0.0;
    SumNonNegative(others);
    assert budgets[i].spent <= total;
    PercentAbove(budgets[i].spent, total, 100.0);
    PercentAbove(budgets[i].spent, total, 0.0);
    PercentEquals(budgets[i].spent, total, 0.0);
  }

  /** Worked case: lines that spent 30 and 70 get shares 30 and 70. */
  lemma ShareExample()
    ensures Shares([Budget("food", 100.0, 30.0, ""), Budget("fuel", 100.0, 70.0, "")]) == [30.0, 70.0]
  {
    var bs := [Budget("food", 100.0, 30.0, ""), Budget("fuel", 100.0, 70.0, "")];
    assert SpentAmounts(bs) == [30.0, 70.0];
    assert TotalSpent(bs) == 100.0;
  }
}

=== FILE: dashboard_data.dfy ===
/** The records the dashboard page derives its figures from
    (src/pages/Index.tsx, interfaces Account, Transaction, Budget and Goal).
    Money is an exact decimal (`real`); a transaction's date is given with
    its fields already extracted. */
module DashboardData {
  import opened Calendar

  /** A transaction's direction; its amount is stored without a sign. */
  datatype Direction = Income | Expense

  datatype Account = Account(id: string, name: string, balance: real, kind: string)

  datatype Transaction = Transaction(
    id: string,
    direction: Direction,
    amount: real,
    category: string,
    description: string,
    date: Date,
    account: string)

  /** A budget line as the page receives it: `spent` is aggregated elsewhere. */
  datatype Budget = Budget(category: string, limit: real, spent: real, icon: string)

  datatype Goal = Goal(id: string, name: string, target: real, current: real, icon: string)
}

=== FILE: dashboard_view.dfy ===
/** Everything the dashboard page derives from one snapshot of accounts,
    transactions, budgets and goals, bundled into one view model
    (src/pages/Index.tsx:74-80, 205-233, 313-314, 358-360). */
module DashboardView {
  import opened RealSums
  import opened DashboardData
  import opened Totals
  import opened BudgetUtilization
  import opened CategoryShare
  import opened GoalProgress

  /** What one budget line on the page shows. */
  datatype BudgetStatus = BudgetStatus(
    category: string,
    percentage: real,
    isOverBudget: bool,
    isNearLimit: bool,
    progress: real,
    remaining: real,
    remainingPercent: real)

  datatype View = View(
    totalBalance: real,
    monthIncome: real,
    monthExpenses: real,
    budgets: seq<BudgetStatus>,
    shares: seq<real>,
    goalProgress: seq<real>)

  /** The divisions the page performs are defined: every limit and every
      target is positive, and the total spent is not 0 when there are lines. */
  predicate Computable(budgets: seq<Budget>, goals: seq<Goal>) {
    && (forall i :: 0 <= i < |budgets| ==> budgets[i].limit > 0.0)
    && (|budgets| > 0 ==> TotalSpent(budgets) != 0.0)
    && (forall i :: 0 <= i < |goals| ==> goals[i].target > 0.0)
  }

  /** One budget line's figures, each from its own definition. */
  function StatusOf(b: Budget): BudgetStatus
    requires b.limit > 0.0
  {
    BudgetStatus(b.category, Utilization(b), IsOverBudget(b), IsNearLimit(b),
                 ProgressValue(b), Remaining(b), RemainingPercent(b))
  }

  /** The view for the snapshot in the month numbered `month`. Every field
      is its component's figure: income and expenses are the two monthly
      flows, together the month's turnover; each budget line's badges
      follow its spent amount against its limit and its bar and remaining
      percent make 100; the shares make 100; each goal's progress is above
      100 exactly when it is over-funded. */
  function BuildView(accounts: seq<Account>, txs: seq<Transaction>, budgets: seq<Budget>,
                     goals: seq<Goal>, month: int): (v: View)
    requires Computable(budgets, goals)
    ensures v.totalBalance == TotalBalance(accounts)
    ensures v.monthIncome == MonthFlow(txs, Income, month) && v.monthExpenses == MonthFlow(txs, Expense, month)
    ensures v.monthIncome + v.monthExpenses == MonthTurnover(txs, month)
    ensures |v.budgets| == |budgets| && |v.shares| == |budgets| && |v.goalProgress| == |goals|
    ensures forall i :: 0 <= i < |budgets| ==>
      && v.budgets[i].category == budgets[i].category
      && (v.budgets[i].isOverBudget <==> budgets[i].spent > budgets[i].limit)
      && !(v.budgets[i].isOverBudget && v.budgets[i].isNearLimit)
      && v.budgets[i].progress <= 100.0
      && v.budgets[i].progress + v.budgets[i].remainingPercent == 100.0
      && v.budgets[i].remaining >= 0.0
    ensures forall i :: 0 <= i < |budgets| ==> v.budgets[i] == StatusOf(budgets[i])
    ensures v.shares == Shares(budgets)
    ensures |budgets| > 0 ==> Sum(v.shares) == 100.0
    ensures forall i :: 0 <= i < |goals| ==> v.goalProgress[i] == Progress(goals[i])
    ensures forall i :: 0 <= i < |goals| ==> (v.goalProgress[i] > 100.0 <==> goals[i].current > goals[i].target)
  {
    MonthIncomePlusExpenses(txs, month);
    if |budgets| > 0 then SharesSumTo100(budgets); Assemble(accounts, txs, budgets, goals, month)
    else Assemble(accounts, txs, budgets, goals, month)
  }

  function Assemble(accounts: seq<Account>, txs: seq<Transaction>, budgets: seq<Budget>,
                    goals: seq<Goal>, month: int): View
    requires Computable(budgets, goals)
  {
    View(
      TotalBalance(accounts),
      MonthFlow(txs, Income, month),
      MonthFlow(txs, Expense, month),
      seq(|budgets|, i requires 0 <= i < |budgets| && budgets[i].limit > 0.0 => StatusOf(budgets[i])),
      Shares(budgets),
      seq(|goals|, i requires 0 <= i < |goals| && goals[i].target > 0.0 => Progress(goals[i])))
  }
}

=== FILE: finance_api.dfy ===
/** The finance API's entry point (backend/finance-api/index.py:11-99): the
    HTTP method and the `action` query parameter select a handler; its
    result is returned as a response. The JSON body arrives already decoded
    into optional fields, the clock is a parameter, and the database is the
    abstract store. */
module FinanceApi {
  import opened Maybe
  import opened Calendar
  import opened StoreData
  import opened StoreUpdates
  import opened StoreQueries

  /** The handlers behind the API. */
  datatype Action =
    | GetDashboard | GetAccounts | GetTransactions | GetBudgets | GetGoals | GetCategories
    | AddTransaction | AddAccount | AddGoal | AddBudget
    | UpdateGoalAction | UpdateBudgetAction

  /** What a request is routed to: the CORS preflight answer, a handler, or
      an error message returned in the body. */
  datatype Route = Preflight | Dispatch(action: Action) | Reject(message: string)

  /** The routing table: every (method, action) pair that reaches a handler. */
  const Routes: map<(string, string), Action> := map[
    ("GET", "dashboard") := GetDashboard,
    ("GET", "accounts") := GetAccounts,
    ("GET", "transactions") := GetTransactions,
    ("GET", "budgets") := GetBudgets,
    ("GET", "goals") := GetGoals,
    ("GET", "categories") := GetCategories,
    ("POST", "transaction") := AddTransaction,
    ("POST", "account") := AddAccount,
    ("POST", "goal") := AddGoal,
    ("POST", "budget") := AddBudget,
    ("PUT", "goal") := UpdateGoalAction,
    ("PUT", "budget") := UpdateBudgetAction]

  /** The methods the API knows. */
  const KnownMethods: set<string> := {"OPTIONS", "GET", "POST", "PUT"}

  /** The dispatch of `handler`: OPTIONS is answered whatever the action; a
      known method with an action from the table reaches its handler; any
      other action under GET, POST or PUT is an unknown action; any other
      method is not allowed. */
  function RouteOf(verb: string, action: string): (r: Route)
    ensures verb == "OPTIONS" <==> r == Preflight
    ensures r.Dispatch? <==> (verb, action) in Routes
    ensures r.Dispatch? ==> r.action == Routes[(verb, action)]
    ensures r == Reject("Method not allowed") <==> verb !in KnownMethods
    ensures r == Reject("Unknown action") <==> verb in KnownMethods - {"OPTIONS"} && (verb, action) !in Routes
  {
    if verb == "OPTIONS" then Preflight
    else if verb == "GET" then
      if action == "dashboard" then Dispatch(GetDashboard)
      else if action == "accounts" then Dispatch(GetAccounts)
      else if action == "transactions" then Dispatch(GetTransactions)
      else if action == "budgets" then Dispatch(GetBudgets)
      else if action == "goals" then Dispatch(GetGoals)
      else if action == "categories" then Dispatch(GetCategories)
      else Reject("Unknown action")
    else if verb == "POST" then
      if action == "transaction" then Dispatch(AddTransaction)
      else if action == "account" then Dispatch(AddAccount)
      else if action == "goal" then Dispatch(AddGoal)
      else if action == "budget" then Dispatch(AddBudget)
      else Reject("Unknown action")
    else if verb == "PUT" then
      if action == "goal" then Dispatch(UpdateGoalAction)
      else if action == "budget" then Dispatch(UpdateBudgetAction)
      else Reject("Unknown action")
    else Reject("Method not allowed")
  }

  /** GET reaches exactly six handlers. */
  lemma GetActions(action: string)
    ensures RouteOf("GET", action).Dispatch?
        <==> action in {"dashboard", "accounts", "transactions", "budgets", "goals", "categories"}
  {
  }

  /** POST reaches exactly four handlers and PUT exactly two; every other
      action under them is an unknown action. */
  lemma WriteActions(action: string)
    ensures RouteOf("POST", action).Dispatch? <==> action in {"transaction", "account", "goal", "budget"}
    ensures RouteOf("PUT", action).Dispatch? <==> action in {"goal", "budget"}
    ensures !RouteOf("POST", action).Dispatch? ==> RouteOf("POST", action) == Reject("Unknown action")
    ensures !RouteOf("PUT", action).Dispatch? ==> RouteOf("PUT", action) == Reject("Unknown action")
  {
  }

  /** The decoded JSON body: every key the handlers read, each possibly absent. */
  datatype Body = Body(
    kind: Option<string>,             // "type"
    amount: Option<real>,
    categoryId: Option<nat>,          // "category_id"
    description: Option<string>,
    transactionDate: Option<Date>,    // "transaction_date"
    accountId: Option<nat>,           // "account_id"
    name: Option<string>,
    balance: Option<real>,
    targetAmount: Option<real>,       // "target_amount"
    currentAmount: Option<real>,      // "current_amount"
    icon: Option<string>,
    limitAmount: Option<real>,        // "limit_amount"
    month: Option<int>,
    year: Option<int>,
    id: Option<nat>)

  /** The body of a request that sent none (`'{}'`). */
  const EmptyBody := Body(None, None, None, None, None, None, None, None, None, None, None, None, None, None, None)

  /** The request: method and action may be missing, as may the body. */
  datatype Event = Event(httpMethod: Option<string>, action: Option<string>, body: Option<Body>)

  /** The clock: today's date and the current timestamp. */
  datatype Clock = Clock(today: Date, now: Timestamp)

  /** What a handler returns, before JSON encoding. */
  datatype Payload =
    | EmptyPayload
    | ErrorPayload(error: string)
    | DashboardPayload(accounts: seq<Account>, transactions: seq<Transaction>, goals: seq<Goal>, budgets: seq<BudgetLine>)
    | AccountsPayload(accounts: seq<Account>)
    | TransactionsPayload(transactions: seq<Transaction>)
    | BudgetsPayload(budgets: seq<BudgetLine>)
    | GoalsPayload(goals: seq<Goal>)
    | CategoriesPayload(categories: seq<Category>)
    | CreatedPayload(idKey: string, id: nat)  // {'success': True, '<idKey>': id}
    | SuccessPayload                           // {'success': True}

  datatype Response = Response(status: int, payload: Payload)

  /** A handler's effect: the next store and the payload. */
  datatype Outcome = Outcome(store: Store, payload: Payload)

  /** The text of a `KeyError` for a missing key, as `str(e)` renders it. */
  function MissingKey(key: string): string {
    "'" + key + "'"
  }

  /** `add_transaction`. The type, amount, category and account are required
      (read in that order); the description defaults to empty and the date to
      today. */
  function HandleAddTransaction(s: Store, b: Body, clock: Clock): (r: Result<Outcome>)
    ensures r.Err? <==> b.kind.None? || b.amount.None? || b.categoryId.None? || b.accountId.None?
    ensures r.Err? && b.kind.None? ==> r.message == MissingKey("type")
    ensures r.Err? && b.kind.Some? && b.amount.None? ==> r.message == MissingKey("amount")
    ensures r.Err? && b.kind.Some? && b.amount.Some? && b.categoryId.None? ==> r.message == MissingKey("category_id")
    ensures r.Err? && b.kind.Some? && b.amount.Some? && b.categoryId.Some? ==> r.message == MissingKey("account_id")
    ensures r.Ok? ==> r.value.store == RecordTransaction(s, b.kind.value, b.amount.value, b.categoryId.value,
      b.description.GetOr(""), b.transactionDate.GetOr(clock.today), b.accountId.value).store
    ensures r.Ok? ==>
      && r.value.payload.CreatedPayload? && r.value.payload.idKey == "transaction_id"
      && r.value.store.transactions == s.transactions + [Transaction(
           r.value.payload.id, b.kind.value, b.amount.value, b.categoryId.value,
           if b.description.Some? then b.description.value else "",
           if b.transactionDate.Some? then b.transactionDate.value else clock.today,
           b.accountId.value)]
  {
    if b.kind.None? then Err(MissingKey("type"))
    else if b.amount.None? then Err(MissingKey("amount"))
    else if b.categoryId.None? then Err(MissingKey("category_id"))
    else if b.accountId.None? then Err(MissingKey("account_id"))
    else
      var ins := RecordTransaction(s, b.kind.value, b.amount.value, b.categoryId.value,
                                   b.description.GetOr(""), b.transactionDate.GetOr(clock.today), b.accountId.value);
      Ok(Outcome(ins.store, CreatedPayload("transaction_id", ins.id)))
  }

  /** `add_account`. Name and type are required; the balance defaults to 0. */
  function HandleAddAccount(s: Store, b: Body): (r: Result<Outcome>)
    ensures r.Err? <==> b.name.None? || b.kind.None?
    ensures r.Err? ==> r.message == if b.name.None? then MissingKey("name") else MissingKey("type")
    ensures r.Ok? ==> r.value.store == CreateAccount(s, b.name.value, b.balance.GetOr(0.0), b.kind.value).store
    ensures r.Ok? ==>
      && r.value.payload.CreatedPayload? && r.value.payload.idKey == "account_id"
      && r.value.store.accounts == s.accounts + [Account(
           r.value.payload.id, b.name.value, if b.balance.Some? then b.balance.value else 0.0, b.kind.value)]
  {
    if b.name.None? then Err(MissingKey("name"))
    else if b.kind.None? then Err(MissingKey("type"))
    else
      var ins := CreateAccount(s, b.name.value, b.balance.GetOr(0.0), b.kind.value);
      Ok(Outcome(ins.store, CreatedPayload("account_id", ins.id)))
  }

  /** `add_goal`. Name, target and icon are required; the saved amount
      defaults to 0, and a new goal is open. */
  function HandleAddGoal(s: Store, b: Body): (r: Result<Outcome>)
    ensures r.Err? <==> b.name.None? || b.targetAmount.None? || b.icon.None?
    ensures r.Err? ==> r.message == if b.name.None? then MissingKey("name")
                                    else if b.targetAmount.None? then MissingKey("target_amount")
                                    else MissingKey("icon")
    ensures r.Ok? ==> r.value.store == CreateGoal(s, b.name.value, b.targetAmount.value, b.currentAmount.GetOr(0.0), b.icon.value).store
    ensures r.Ok? ==>
      && r.value.payload.CreatedPayload? && r.value.payload.idKey == "goal_id"
      && r.value.store.goals == s.goals + [Goal(
           r.value.payload.id, b.name.value, b.targetAmount.value,
           if b.currentAmount.Some? then b.currentAmount.value else 0.0, b.icon.value, None)]
  {
    if b.name.None? then Err(MissingKey("name"))
    else if b.targetAmount.None? then Err(MissingKey("target_amount"))
    else if b.icon.None? then Err(MissingKey("icon"))
    else
      var ins := CreateGoal(s, b.name.value, b.targetAmount.value, b.currentAmount.GetOr(0.0), b.icon.value);
      Ok(Outcome(ins.store, CreatedPayload("goal_id", ins.id)))
  }

  /** `add_budget`. Category and limit are required; month and year default
      to the current ones. Afterwards the budget of that category and period
      has the new limit and the returned id. */
  function HandleAddBudget(s: Store, b: Body, clock: Clock): (r: Result<Outcome>)
    ensures r.Err? <==> b.categoryId.None? || b.limitAmount.None?
    ensures r.Err? ==> r.message == if b.categoryId.None? then MissingKey("category_id") else MissingKey("limit_amount")
    ensures r.Ok? ==>
      var month := if b.month.Some? then b.month.value else clock.today.month;
      var year := if b.year.Some? then b.year.value else clock.today.year;
      && r.value.payload.CreatedPayload? && r.value.payload.idKey == "budget_id"
      && r.value.store == UpsertBudget(s, b.categoryId.value, b.limitAmount.value, month, year).store
      && exists i :: 0 <= i < |r.value.store.budgets|
           && r.value.store.budgets[i] == Budget(r.value.payload.id, b.categoryId.value, b.limitAmount.value, month, year)
  {
    if b.categoryId.None? then Err(MissingKey("category_id"))
    else if b.limitAmount.None? then Err(MissingKey("limit_amount"))
    else
      var ins := UpsertBudget(s, b.categoryId.value, b.limitAmount.value,
                              b.month.GetOr(clock.today.month), b.year.GetOr(clock.today.year));
      Ok(Outcome(ins.store, CreatedPayload("budget_id", ins.id)))
  }

  /** `update_goal`. The saved amount and the id are required. */
  function HandleUpdateGoal(s: Store, b: Body, clock: Clock): (r: Result<Outcome>)
    ensures r.Err? <==> b.currentAmount.None? || b.id.None?
    ensures r.Err? ==> r.message == if b.currentAmount.None? then MissingKey("current_amount") else MissingKey("id")
    ensures r.Ok? ==> r.value.payload == SuccessPayload
    ensures r.Ok? ==> r.value.store == UpdateGoal(s, b.id.value, b.currentAmount.value, clock.now)
  {
    if b.currentAmount.None? then Err(MissingKey("current_amount"))
    else if b.id.None? then Err(MissingKey("id"))
    else Ok(Outcome(UpdateGoal(s, b.id.value, b.currentAmount.value, clock.now), SuccessPayload))
  }

  /** `update_budget`. The limit and the id are required. */
  function HandleUpdateBudget(s: Store, b: Body): (r: Result<Outcome>)
    ensures r.Err? <==> b.limitAmount.None? || b.id.None?
    ensures r.Err? ==> r.message == if b.limitAmount.None? then MissingKey("limit_amount") else MissingKey("id")
    ensures r.Ok? ==> r.value.payload == SuccessPayload
    ensures r.Ok? ==> r.value.store == UpdateBudget(s, b.id.value, b.limitAmount.value)
  {
    if b.limitAmount.None? then Err(MissingKey("limit_amount"))
    else if b.id.None? then Err(MissingKey("id"))
    else Ok(Outcome(UpdateBudget(s, b.id.value, b.limitAmount.value), SuccessPayload))
  }

  /** Predicate of the handlers that only read. */
  predicate ReadOnly(a: Action) {
    a in {GetDashboard, GetAccounts, GetTransactions, GetBudgets, GetGoals, GetCategories}
  }

  /** Run one handler. Reads leave the store as it was; every handler keeps
      the store valid. */
  function Run(a: Action, s: Store, b: Body, clock: Clock): (r: Result<Outcome>)
    ensures ReadOnly(a) ==> r.Ok? && r.value.store == s
    ensures a == GetDashboard ==> r.value.payload == DashboardPayload(s.accounts, s.transactions, s.goals,
      DashboardBudgets(s.categories, s, clock.today.month, clock.today.year))
    ensures a == GetAccounts ==> r.value.payload == AccountsPayload(s.accounts)
    ensures a == GetTransactions ==> r.value.payload == TransactionsPayload(s.transactions)
    ensures a == GetBudgets ==> r.value.payload == BudgetsPayload(PeriodBudgets(s.budgets, s, clock.today.month, clock.today.year))
    ensures a == GetGoals ==> r.value.payload == GoalsPayload(OpenGoals(s.goals))
    ensures a == GetGoals ==>
      && r.value.payload.GoalsPayload?
      && (forall g :: g in r.value.payload.goals <==> g in s.goals && g.completedAt.None?)
    ensures a == GetCategories ==> r.value.payload == CategoriesPayload(s.categories)
    ensures a == AddTransaction ==> r == HandleAddTransaction(s, b, clock)
    ensures a == AddAccount ==> r == HandleAddAccount(s, b)
    ensures a == AddGoal ==> r == HandleAddGoal(s, b)
    ensures a == AddBudget ==> r == HandleAddBudget(s, b, clock)
    ensures a == UpdateGoalAction ==> r == HandleUpdateGoal(s, b, clock)
    ensures a == UpdateBudgetAction ==> r == HandleUpdateBudget(s, b)
    ensures r.Ok? && Valid(s) ==> Valid(r.value.store)
  {
    var month := clock.today.month;
    var year := clock.today.year;
    match a
    case GetDashboard =>
      Ok(Outcome(s, DashboardPayload(s.accounts, s.transactions, s.goals,
                                     DashboardBudgets(s.categories, s, month, year))))
    case GetAccounts => Ok(Outcome(s, AccountsPayload(s.accounts)))
    case GetTransactions => Ok(Outcome(s, TransactionsPayload(s.transactions)))
    case GetBudgets => Ok(Outcome(s, BudgetsPayload(PeriodBudgets(s.budgets, s, month, year))))
    case GetGoals => Ok(Outcome(s, GoalsPayload(OpenGoals(s.goals))))
    case GetCategories => Ok(Outcome(s, CategoriesPayload(s.categories)))
    case AddTransaction => HandleAddTransaction(s, b, clock)
    case AddAccount => HandleAddAccount(s, b)
    case AddGoal => HandleAddGoal(s, b)
    case AddBudget => HandleAddBudget(s, b, clock)
    case UpdateGoalAction => HandleUpdateGoal(s, b, clock)
    case UpdateBudgetAction => HandleUpdateBudget(s, b)
  }

  /** The response and next store of one request. */
  datatype Exchange = Exchange(store: Store, response: Response)

  /** Every handler GET reaches only reads. */
  lemma GetRoutesRead(action: string)
    ensures RouteOf("GET", action).Dispatch? ==> ReadOnly(RouteOf("GET", action).action)
  {
  }

  /** The answer to a dispatched request: the handler's store and payload
      with 200 when it returned, the old store and its error with 500 when
      it raised. */
  function Reply(s: Store, out: Result<Outcome>): (x: Exchange)
    ensures x.response.status == 200 <==> out.Ok?
    ensures out.Ok? ==> x == Exchange(out.value.store, Response(200, out.value.payload))
    ensures out.Err? ==> x == Exchange(s, Response(500, ErrorPayload(out.message)))
  {
    match out
    case Ok(o) => Exchange(o.store, Response(200, o.payload))
    case Err(message) => Exchange(s, Response(500, ErrorPayload(message)))
  }

  /** `handler`. The method defaults to GET and the action to empty. Every
      answer has status 200 (routing errors included) except a handler that
      raised, which answers 500 and commits nothing. Preflight and rejected
      requests leave the store as it was, and so does every GET. */
  function Handle(s: Store, e: Event, clock: Clock): (x: Exchange)
    ensures x.response.status == 200 || x.response.status == 500
    ensures x.response.status == 500 ==> x.store == s && x.response.payload.ErrorPayload?
    ensures e.httpMethod == Some("OPTIONS") ==> x == Exchange(s, Response(200, EmptyPayload))
    ensures e.httpMethod.Some? && e.httpMethod.value !in KnownMethods ==>
      x == Exchange(s, Response(200, ErrorPayload("Method not allowed")))
    ensures e.httpMethod.None? || e.httpMethod == Some("GET") ==> x.store == s && x.response.status == 200
    ensures var route := RouteOf(e.httpMethod.GetOr("GET"), e.action.GetOr(""));
      route.Reject? ==> x == Exchange(s, Response(200, ErrorPayload(route.message)))
    ensures var route := RouteOf(e.httpMethod.GetOr("GET"), e.action.GetOr(""));
      route.Dispatch? ==>
        var out := Run(route.action, s, e.body.GetOr(EmptyBody), clock);
        && (x.response.status == 200 <==> out.Ok?)
        && (out.Ok? ==> x.store == out.value.store && x.response.payload == out.value.payload)
        && (out.Err? ==> x == Exchange(s, Response(500, ErrorPayload(out.message))))
    ensures Valid(s) ==> Valid(x.store)
  {
    var verb := e.httpMethod.GetOr("GET");
    var action := e.action.GetOr("");
    GetRoutesRead(action);
    match RouteOf(verb, action)
    case Preflight => Exchange(s, Response(200, EmptyPayload))
    case Reject(message) => Exchange(s, Response(200, ErrorPayload(message)))
    case Dispatch(a) => Reply(s, Run(a, s, e.body.GetOr(EmptyBody), clock))
  }
}

=== FILE: goal_progress.dfy ===
/** Savings-goal progress (src/pages/Index.tsx:314) and the sign shown before
    a transaction's amount (src/pages/Index.tsx:265). */
module GoalProgress {
  import opened Percentages
  import opened DashboardData

  /** How far a goal is funded, in percent. It is not capped: an over-funded
      goal shows more than 100. */
  function Progress(g: Goal): (p: real)
    requires g.target > 0.0
    ensures p > 100.0 <==> g.current > g.target
    ensures p == 100.0 <==> g.current == g.target
    ensures p >= 0.0 <==> g.current >= 0.0
    ensures p * g.target == 100.0 * g.current
  {
    PercentAbove(g.current, g.target, 100.0);
    PercentEquals(g.current, g.target, 100.0);
    PercentAbove(g.current, g.target, 0.0);
    PercentEquals(g.current, g.target, 0.0);
    PercentTimesWhole(g.current, g.target);
    Percent(g.current, g.target)
  }

  /** Worked case: 250000 saved toward 200000 is 125%. */
  lemma OverFundedExample()
    ensures Progress(Goal("1", "MacBook Pro", 200000.0, 250000.0, "Laptop")) == 125.0
  {
  }

  /** The sign printed before an amount in the transaction list: `+` for
      income and the minus sign U+2212 for an expense. */
  function AmountSign(d: Direction): (sign: char)
    ensures sign == '+' <==> d.Income?
    ensures sign == '\U{2212}' <==> d.Expense?
  {
    if d.Income? then '+' else '\U{2212}'
  }
}

=== FILE: maybe.dfy ===
/** Optional values and results with a textual error, used for the request
    fields a caller may omit and for handlers that can fail. */
module Maybe {

  /** A value that may be absent, as a missing key in a JSON body. */
  datatype Option<+T> = None | Some(value: T) {

    /** The carried value, or `default` when absent (Python's `dict.get(key, default)`). */
    function GetOr(default: T): T {
      match this
      case Some(v) => v
      case None => default
    }
  }

  /** The outcome of a handler: a value, or the message of the error it raised. */
  datatype Result<+T> = Ok(value: T) | Err(message: string)
}

=== FILE: percentages.dfy ===
/** The one percentage formula of the dashboard, `part / whole * 100`, and
    the facts about it that turn percentage thresholds into comparisons of
    amounts. The page divides without a guard; here a zero divisor is
    excluded by precondition instead of producing a non-finite number. */
module Percentages {
  import opened RealSums

  /** `part` as a percentage of `whole`. */
  function Percent(part: real, whole: real): real
    requires whole != 0.0
  {
    part / whole * 100.0
  }

  /** Scaling back: the percentage times the whole is a hundred times the part. */
  lemma PercentTimesWhole(part: real, whole: real)
    requires whole != 0.0
    ensures Percent(part, whole) * whole == 100.0 * part
  {
    var q := part / whole;
    assert q * whole == part;
    calc {
      Percent(part, whole) * whole;
      (q * 100.0) * whole;
      (q * whole) * 100.0;
    }
  }

  /** A percentage is above `k` exactly when a hundred times the part is above
      `k` times the (positive) whole. */
  lemma PercentAbove(part: real, whole: real, k: real)
    requires whole > 0.0
    ensures Percent(part, whole) > k <==> 100.0 * part > k * whole
  {
    var p := Percent(part, whole);
    PercentTimesWhole(part, whole);
    if p > k {
      assert p * whole > k * whole by { MultiplyStrict(p, k, whole); }
    } else {
      assert p * whole <= k * whole by { MultiplyWeak(p, k, whole); }
    }
  }

  /** A percentage equals `k` exactly when a hundred times the part equals `k`
      times the whole. */
  lemma PercentEquals(part: real, whole: real, k: real)
    requires whole > 0.0
    ensures Percent(part, whole) == k <==> 100.0 * part == k * whole
  {
    PercentAbove(part, whole, k);
    PercentTimesWhole(part, whole);
    var p := Percent(part, whole);
    if 100.0 * part == k * whole {
      assert p * whole == k * whole;
      if p > k {
        MultiplyStrict(p, k, whole);
      } else if p < k {
        MultiplyStrict(k, p, whole);
      }
    }
  }

  /** Percentages of one whole add up like their parts. */
  lemma PercentAdd(a: real, b: real, whole: real)
    requires whole != 0.0
    ensures Percent(a + b, whole) == Percent(a, whole) + Percent(b, whole)
  {
    assert (a + b) / whole == a / whole + b / whole;
  }

  /** The whole is a hundred percent of itself. */
  lemma PercentOfWhole(whole: real)
    requires whole != 0.0
    ensures Percent(whole, whole) == 100.0
  {
  }

  /** Each amount as a percentage of a common whole. */
  function PercentsOf(xs: seq<real>, whole: real): seq<real>
    requires whole != 0.0
  {
    seq(|xs|, i requires 0 <= i < |xs| => Percent(xs[i], whole))
  }

  /** The percentages of the parts sum to the percentage of their sum. */
  lemma {:induction false} SumOfPercents(xs: seq<real>, whole: real)
    requires whole != 0.0
    ensures Sum(PercentsOf(xs, whole)) == Percent(Sum(xs), whole)
  {
    if |xs| == 0 {
    } else {
      assert PercentsOf(xs, whole)[1..] == PercentsOf(xs[1..], whole);
      SumOfPercents(xs[1..], whole);
      PercentAdd(xs[0], Sum(xs[1..]), whole);
    }
  }

  lemma MultiplyStrict(x: real, y: real, z: real)
    requires x > y && z > 0.0
    ensures x * z > y * z
  {
  }

  lemma MultiplyWeak(x: real, y: real, z: real)
    requires x <= y && z > 0.0
    ensures x * z <= y * z
  {
  }
}

=== FILE: real_sums.dfy ===
/** Exact sums of decimal amounts. Every total in the system (balances,
    monthly flows, spent per budget, shares) is a sum of this kind. */
module RealSums {

  /** The sum of the amounts, 0 for none. */
  function Sum(xs: seq<real>): real
  {
    if |xs| == 0 then 0.0 else xs[0] + Sum(xs[1..])
  }

  /** Summing is additive over concatenation. */
  lemma {:induction false} SumAppend(xs: seq<real>, ys: seq<real>)
    ensures Sum(xs + ys) == Sum(xs) + Sum(ys)
  {
    if |xs| == 0 {
      assert xs + ys == ys;
    } else {
      assert (xs + ys)[1..] == xs[1..] + ys;
      SumAppend(xs[1..], ys);
    }
  }

  /** Adding one more amount at the end, as a left-to-right reduce does. */
  lemma SumSnoc(xs: seq<real>, x: real)
    ensures Sum(xs + [x]) == Sum(xs) + x
  {
    SumAppend(xs, [x]);
  }

  /** Taking out the amount at position `k` lowers the sum by exactly that amount. */
  lemma {:induction false} SumRemove(xs: seq<real>, k: int)
    requires 0 <= k < |xs|
    ensures Sum(xs) == Sum(xs[..k] + xs[k + 1..]) + xs[k]
  {
    var front, back := xs[..k], xs[k + 1..];
    assert xs == (front + [xs[k]]) + back;
    SumAppend(front + [xs[k]], back);
    SumAppend(front, [xs[k]]);
    SumAppend(front, back);
  }

  /** Replacing the amount at position `k` shifts the sum by the difference. */
  lemma SumUpdate(xs: seq<real>, k: int, v: real)
    requires 0 <= k < |xs|
    ensures Sum(xs[k := v]) == Sum(xs) - xs[k] + v
  {
    var ys := xs[k := v];
    SumRemove(xs, k);
    SumRemove(ys, k);
    assert ys[..k] + ys[k + 1..] == xs[..k] + xs[k + 1..];
  }

  /** Equal multisets stay equal after taking one common element out. */
  lemma MultisetCancel<T>(a: multiset<T>, b: multiset<T>, x: T)
    requires multiset{x} + a == b + multiset{x}
    ensures a == b
  {
    assert forall e :: a[e] == (multiset{x} + a)[e] - multiset{x}[e];
    assert forall e :: b[e] == (b + multiset{x})[e] - multiset{x}[e];
  }

  /** A sum of non-negative amounts is non-negative. */
  lemma {:induction false} SumNonNegative(xs: seq<real>)
    requires forall i :: 0 <= i < |xs| ==> xs[i] >= 0.0
    ensures Sum(xs) >= 0.0
  {
    if |xs| > 0 {
      SumNonNegative(xs[1..]);
    }
  }
}

=== FILE: store_data.dfy ===
/** The finance API's tables (backend/finance-api/index.py), as an abstract
    state rather than SQL: each table is the sequence of its rows, and the
    sequence behind each serial id column is a counter of the next value
    `nextval` hands out; every `INSERT` draws one. */
module StoreData {
  import opened Maybe
  import opened Calendar
  import opened RealSums

  /** A point in time (`CURRENT_TIMESTAMP`), supplied from outside. */
  type Timestamp = int

  datatype Account = Account(id: nat, name: string, balance: real, kind: string)

  /** A recorded transaction; `kind` is the request's `type` text, nominally
      `income` or `expense`. */
  datatype Transaction = Transaction(
    id: nat,
    kind: string,
    amount: real,
    categoryId: nat,
    description: string,
    date: Date,
    accountId: nat)

  /** Reference data: categories are read, never written, by the API. */
  datatype Category = Category(id: nat, name: string, kind: string, icon: string)

  datatype Budget = Budget(id: nat, categoryId: nat, limit: real, month: int, year: int)

  /** A savings goal; `completedAt` is the SQL `completed_at`, NULL while open. */
  datatype Goal = Goal(
    id: nat,
    name: string,
    target: real,
    current: real,
    icon: string,
    completedAt: Option<Timestamp>)

  datatype Store = Store(
    accounts: seq<Account>,
    transactions: seq<Transaction>,
    categories: seq<Category>,
    budgets: seq<Budget>,
    goals: seq<Goal>,
    nextAccountId: nat,
    nextTransactionId: nat,
    nextBudgetId: nat,
    nextGoalId: nat)

  /** The unique key of the budgets table: one limit per category per month. */
  datatype BudgetKey = BudgetKey(categoryId: nat, month: int, year: int)

  function KeyOf(b: Budget): BudgetKey {
    BudgetKey(b.categoryId, b.month, b.year)
  }

  predicate UniqueBudgetKeys(budgets: seq<Budget>) {
    forall i, j :: 0 <= i < j < |budgets| ==> KeyOf(budgets[i]) != KeyOf(budgets[j])
  }

  /** Ids are pairwise distinct. */
  predicate Distinct(ids: seq<nat>) {
    forall i, j :: 0 <= i < j < |ids| ==> ids[i] != ids[j]
  }

  /** Every id was handed out before the counter reached `next`. */
  predicate Below(ids: seq<nat>, next: nat) {
    forall i :: 0 <= i < |ids| ==> ids[i] < next
  }

  function AccountIds(rows: seq<Account>): seq<nat> {
    seq(|rows|, i requires 0 <= i < |rows| => rows[i].id)
  }

  function TransactionIds(rows: seq<Transaction>): seq<nat> {
    seq(|rows|, i requires 0 <= i < |rows| => rows[i].id)
  }

  function CategoryIds(rows: seq<Category>): seq<nat> {
    seq(|rows|, i requires 0 <= i < |rows| => rows[i].id)
  }

  function BudgetIds(rows: seq<Budget>): seq<nat> {
    seq(|rows|, i requires 0 <= i < |rows| => rows[i].id)
  }

  function GoalIds(rows: seq<Goal>): seq<nat> {
    seq(|rows|, i requires 0 <= i < |rows| => rows[i].id)
  }

  /** The constraints the database keeps: primary keys are distinct and below
      their serial counters, category ids are distinct, and no two budgets
      share a (category, month, year) key. */
  predicate Valid(s: Store) {
    && Distinct(AccountIds(s.accounts)) && Below(AccountIds(s.accounts), s.nextAccountId)
    && Distinct(TransactionIds(s.transactions)) && Below(TransactionIds(s.transactions), s.nextTransactionId)
    && Distinct(CategoryIds(s.categories))
    && Distinct(BudgetIds(s.budgets)) && Below(BudgetIds(s.budgets), s.nextBudgetId)
    && Distinct(GoalIds(s.goals)) && Below(GoalIds(s.goals), s.nextGoalId)
    && UniqueBudgetKeys(s.budgets)
  }

  /** The balance column of the accounts table. The page has its own account
      record and total (module `Totals`); this is the store's. */
  function BalanceColumn(rows: seq<Account>): seq<real> {
    seq(|rows|, i requires 0 <= i < |rows| => rows[i].balance)
  }

  /** The money held over all account rows. */
  function HeldBalance(rows: seq<Account>): real {
    Sum(BalanceColumn(rows))
  }

  /** The position of the first budget row with the given key, if any: the
      row an `ON CONFLICT (category_id, month, year)` clause collides with. */
  function FindBudget(rows: seq<Budget>, key: BudgetKey): (r: Option<nat>)
    ensures r.Some? ==> r.value < |rows| && KeyOf(rows[r.value]) == key
    ensures r.Some? ==> forall j :: 0 <= j < r.value ==> KeyOf(rows[j]) != key
    ensures r.None? <==> forall j :: 0 <= j < |rows| ==> KeyOf(rows[j]) != key
  {
    if |rows| == 0 then None
    else if KeyOf(rows[0]) == key then Some(0)
    else
      match FindBudget(rows[1..], key)
      case Some(k) => Some(k + 1)
      case None => None
  }

  /** Under unique keys the first row with a key is the only one. */
  lemma FindBudgetUnique(rows: seq<Budget>, key: BudgetKey, k: int)
    requires UniqueBudgetKeys(rows)
    requires 0 <= k < |rows| && KeyOf(rows[k]) == key
    ensures FindBudget(rows, key) == Some(k)
  {
  }

  /** Handing out the counter as a new id keeps ids distinct and below the
      advanced counter. */
  lemma FreshId(ids: seq<nat>, next: nat)
    ensures Distinct(ids) && Below(ids, next) ==>
      Distinct(ids + [next]) && Below(ids + [next], next + 1) && next !in ids
  {
  }
}

=== FILE: store_queries.dfy ===
/** The finance API's reads (backend/finance-api/index.py:102-204): open
    goals, the per-period spent aggregate and the two kinds of budget line.
    Result ordering (`ORDER BY`) and row limits (`LIMIT`) are not modelled:
    rows come back in table order. */
module StoreQueries {
  import opened Maybe
  import opened Calendar
  import opened RealSums
  import opened StoreData
  import opened StoreUpdates

  /** `get_goals`: the goals not yet completed, in table order. */
  function OpenGoals(goals: seq<Goal>): (r: seq<Goal>)
    ensures |r| <= |goals|
    ensures forall g :: g in r <==> g in goals && g.completedAt.None?
  {
    if |goals| == 0 then []
    else
      var rest := OpenGoals(goals[1..]);
      assert goals == [goals[0]] + goals[1..];
      if goals[0].completedAt.None? then [goals[0]] + rest else rest
  }

  /** The listing holds every copy of an open goal row and no completed one:
      it is exact as a multiset, not only as a set. */
  lemma {:induction false} OpenGoalsCounts(goals: seq<Goal>)
    ensures forall g :: multiset(OpenGoals(goals))[g] == if g.completedAt.None? then multiset(goals)[g] else 0
  {
    if |goals| > 0 {
      OpenGoalsCounts(goals[1..]);
      assert goals == [goals[0]] + goals[1..];
    }
  }

  /** After its saved amount is set, a goal is listed exactly when the amount
      is still below its target. */
  lemma UpdatedGoalListing(s: Store, id: nat, current: real, now: Timestamp, k: int)
    requires 0 <= k < |s.goals| && s.goals[k].id == id
    ensures UpdateGoal(s, id, current, now).goals[k] in OpenGoals(UpdateGoal(s, id, current, now).goals)
        <==> current < s.goals[k].target
  {
  }

  /** True when a transaction is an expense of the category dated in the period. */
  predicate SpentIn(t: Transaction, categoryId: nat, month: int, year: int) {
    t.kind == "expense" && t.categoryId == categoryId && InPeriod(t.date, month, year)
  }

  /** `COALESCE(SUM(t.amount), 0)` over the expenses of a category in a period. */
  function CategorySpent(txs: seq<Transaction>, categoryId: nat, month: int, year: int): real
  {
    if |txs| == 0 then 0.0
    else (if SpentIn(txs[0], categoryId, month, year) then txs[0].amount else 0.0)
         + CategorySpent(txs[1..], categoryId, month, year)
  }

  /** One more transaction adds its amount to the spent of the category and
      period it is an expense of, and to no other. */
  lemma {:induction false} CategorySpentAppend(txs: seq<Transaction>, t: Transaction, categoryId: nat, month: int, year: int)
    ensures CategorySpent(txs + [t], categoryId, month, year)
         == CategorySpent(txs, categoryId, month, year) + (if SpentIn(t, categoryId, month, year) then t.amount else 0.0)
  {
    if |txs| > 0 {
      assert (txs + [t])[1..] == txs[1..] + [t];
      CategorySpentAppend(txs[1..], t, categoryId, month, year);
    } else {
      assert (txs + [t])[1..] == [];
    }
  }

  /** Spent over non-negative amounts is non-negative. */
  lemma {:induction false} CategorySpentNonNegative(txs: seq<Transaction>, categoryId: nat, month: int, year: int)
    requires forall i :: 0 <= i < |txs| ==> txs[i].amount >= 0.0
    ensures CategorySpent(txs, categoryId, month, year) >= 0.0
  {
    if |txs| > 0 {
      CategorySpentNonNegative(txs[1..], categoryId, month, year);
    }
  }

  /** Recording an expense of a category dated in a period raises that
      category's spent for the period by the amount; every other category and
      period keeps its spent. */
  lemma RecordExpenseRaisesSpent(s: Store, amount: real, categoryId: nat, description: string,
                                 date: Date, accountId: nat, otherCategory: nat, month: int, year: int)
    ensures var after := RecordTransaction(s, "expense", amount, categoryId, description, date, accountId).store;
      CategorySpent(after.transactions, otherCategory, month, year)
        == CategorySpent(s.transactions, otherCategory, month, year)
           + (if otherCategory == categoryId && InPeriod(date, month, year) then amount else 0.0)
  {
    var r := RecordTransaction(s, "expense", amount, categoryId, description, date, accountId);
    CategorySpentAppend(s.transactions, Transaction(r.id, "expense", amount, categoryId, description, date, accountId),
                        otherCategory, month, year);
  }

  /** `COALESCE(b.limit_amount, 0)`: the limit of the budget with the key, or 0. */
  function LimitFor(budgets: seq<Budget>, categoryId: nat, month: int, year: int): (limit: real)
    ensures (forall j :: 0 <= j < |budgets| ==> KeyOf(budgets[j]) != BudgetKey(categoryId, month, year)) ==> limit == 0.0
    ensures UniqueBudgetKeys(budgets) ==>
      forall j :: 0 <= j < |budgets| && KeyOf(budgets[j]) == BudgetKey(categoryId, month, year) ==> limit == budgets[j].limit
  {
    var key := BudgetKey(categoryId, month, year);
    match FindBudget(budgets, key)
    case Some(k) => UniqueKeyFound(budgets, key, k); budgets[k].limit
    case None => 0.0
  }

  lemma UniqueKeyFound(budgets: seq<Budget>, key: BudgetKey, k: nat)
    requires k < |budgets| && KeyOf(budgets[k]) == key
    ensures UniqueBudgetKeys(budgets) ==>
      forall j :: 0 <= j < |budgets| && KeyOf(budgets[j]) == key ==> budgets[j] == budgets[k]
  {
  }

  /** One line of a budget report: the category's name and icon, the limit,
      and what was spent; `id` is the budget row's id where the query selects it. */
  datatype BudgetLine = BudgetLine(id: Option<nat>, category: string, icon: string, limit: real, spent: real)

  /** The dashboard line of a category for a period. */
  function DashboardLine(c: Category, s: Store, month: int, year: int): BudgetLine {
    BudgetLine(None, c.name, c.icon, LimitFor(s.budgets, c.id, month, year),
               CategorySpent(s.transactions, c.id, month, year))
  }

  /** The categories the dashboard's budget query keeps: expense categories
      whose limit for the period is positive (`HAVING ... > 0`). */
  predicate Shown(c: Category, s: Store, month: int, year: int) {
    c.kind == "expense" && LimitFor(s.budgets, c.id, month, year) > 0.0
  }

  /** The dashboard's budget query over the categories `cats`: one line per
      shown category, in category order. */
  function DashboardBudgets(cats: seq<Category>, s: Store, month: int, year: int): (r: seq<BudgetLine>)
    ensures |r| <= |cats|
    ensures forall i :: 0 <= i < |r| ==> r[i].limit > 0.0 && r[i].id.None?
  {
    if |cats| == 0 then []
    else
      var rest := DashboardBudgets(cats[1..], s, month, year);
      if Shown(cats[0], s, month, year) then [DashboardLine(cats[0], s, month, year)] + rest else rest
  }

  /** Every dashboard line is the line of a shown category; `j` is its position. */
  lemma {:induction false} DashboardBudgetsSound(cats: seq<Category>, s: Store, month: int, year: int, i: int)
    returns (j: int)
    requires 0 <= i < |DashboardBudgets(cats, s, month, year)|
    ensures 0 <= j < |cats| && Shown(cats[j], s, month, year)
    ensures DashboardBudgets(cats, s, month, year)[i] == DashboardLine(cats[j], s, month, year)
  {
    if Shown(cats[0], s, month, year) && i == 0 {
      j := 0;
    } else {
      var k := DashboardBudgetsSound(cats[1..], s, month, year, if Shown(cats[0], s, month, year) then i - 1 else i);
      j := k + 1;
    }
  }

  /** Every shown category has its line on the dashboard. */
  lemma {:induction false} DashboardBudgetsComplete(cats: seq<Category>, s: Store, month: int, year: int, j: int)
    requires 0 <= j < |cats| && Shown(cats[j], s, month, year)
    ensures DashboardLine(cats[j], s, month, year) in DashboardBudgets(cats, s, month, year)
  {
    if j > 0 {
      DashboardBudgetsComplete(cats[1..], s, month, year, j - 1);
    }
  }

  /** The first category with the id: the row an inner join matches. */
  function FindCategory(cats: seq<Category>, id: nat): (r: Option<Category>)
    ensures r.Some? ==> r.value in cats && r.value.id == id
    ensures r.None? <==> forall c :: c in cats ==> c.id != id
  {
    if |cats| == 0 then None
    else if cats[0].id == id then Some(cats[0])
    else
      assert cats == [cats[0]] + cats[1..];
      FindCategory(cats[1..], id)
  }

  /** The `get_budgets` line of a budget row, absent when its category is unknown. */
  function PeriodLine(b: Budget, s: Store, month: int, year: int): Option<BudgetLine> {
    match FindCategory(s.categories, b.categoryId)
    case Some(c) => Some(BudgetLine(Some(b.id), c.name, c.icon, b.limit,
                                    CategorySpent(s.transactions, b.categoryId, month, year)))
    case None => None
  }

  /** True when the budget row belongs to the period and its category exists. */
  predicate Listed(b: Budget, s: Store, month: int, year: int) {
    b.month == month && b.year == year && PeriodLine(b, s, month, year).Some?
  }

  /** `get_budgets` over the budget rows `rows`: one line per listed row, in
      row order, carrying the row's id. */
  function PeriodBudgets(rows: seq<Budget>, s: Store, month: int, year: int): (r: seq<BudgetLine>)
    ensures |r| <= |rows|
    ensures forall i :: 0 <= i < |r| ==> r[i].id.Some?
  {
    if |rows| == 0 then []
    else
      var rest := PeriodBudgets(rows[1..], s, month, year);
      if Listed(rows[0], s, month, year) then [PeriodLine(rows[0], s, month, year).value] + rest else rest
  }

  /** Every budgets-report line is the line of a listed row; `j` is its position. */
  lemma {:induction false} PeriodBudgetsSound(rows: seq<Budget>, s: Store, month: int, year: int, i: int)
    returns (j: int)
    requires 0 <= i < |PeriodBudgets(rows, s, month, year)|
    ensures 0 <= j < |rows| && Listed(rows[j], s, month, year)
    ensures PeriodLine(rows[j], s, month, year) == Some(PeriodBudgets(rows, s, month, year)[i])
  {
    if Listed(rows[0], s, month, year) && i == 0 {
      j := 0;
    } else {
      var k := PeriodBudgetsSound(rows[1..], s, month, year, if Listed(rows[0], s, month, year) then i - 1 else i);
      j := k + 1;
    }
  }

  /** Every listed row has its line in the budgets report. */
  lemma {:induction false} PeriodBudgetsComplete(rows: seq<Budget>, s: Store, month: int, year: int, j: int)
    requires 0 <= j < |rows| && Listed(rows[j], s, month, year)
    ensures PeriodLine(rows[j], s, month, year).value in PeriodBudgets(rows, s, month, year)
  {
    if j > 0 {
      PeriodBudgetsComplete(rows[1..], s, month, year, j - 1);
    }
  }

  /** In a valid store the two reports agree: the dashboard line of a period
      budget's category has the same limit and spent as the row's
      `get_budgets` line, and it is on the dashboard when the category is an
      expense category and the limit is positive. */
  lemma ReportsAgree(s: Store, k: int, month: int, year: int)
    requires Valid(s)
    requires 0 <= k < |s.budgets| && s.budgets[k].month == month && s.budgets[k].year == year
    requires PeriodLine(s.budgets[k], s, month, year).Some?
    ensures var c := FindCategory(s.categories, s.budgets[k].categoryId).value;
      var line := PeriodLine(s.budgets[k], s, month, year).value;
      && DashboardLine(c, s, month, year).limit == line.limit
      && DashboardLine(c, s, month, year).spent == line.spent
      && (c.kind == "expense" && line.limit > 0.0 ==> DashboardLine(c, s, month, year) in DashboardBudgets(s.categories, s, month, year))
  {
    var b := s.budgets[k];
    assert KeyOf(b) == BudgetKey(b.categoryId, month, year);
    var c := FindCategory(s.categories, b.categoryId).value;
    var j :| 0 <= j < |s.categories| && s.categories[j] == c;
    if c.kind == "expense" && b.limit > 0.0 {
      DashboardBudgetsComplete(s.categories, s, month, year, j);
    }
  }
}

=== FILE: store_updates.dfy ===
/** The finance API's writes (backend/finance-api/index.py:207-314) as
    functions from a store to the next store. Field defaults taken from the
    request body are applied by the request handlers; these functions receive
    complete values. */
module StoreUpdates {
  import opened Maybe
  import opened Calendar
  import opened RealSums
  import opened StoreData

  /** The store after an insert, with the id the `RETURNING id` clause gives back. */
  datatype Inserted = Inserted(store: Store, id: nat)

  /** How one account row changes when a transaction is recorded: only a row
      with the referenced id moves, up by the amount for the type `income`
      and down by it for every other type. */
  predicate BalanceEffect(before: Account, after: Account, kind: string, amount: real, accountId: nat) {
    && after.id == before.id && after.name == before.name && after.kind == before.kind
    && (before.id != accountId ==> after.balance == before.balance)
    && (before.id == accountId && kind == "income" ==> after.balance == before.balance + amount)
    && (before.id == accountId && kind != "income" ==> after.balance == before.balance - amount)
  }

  /** The signed change a transaction makes to its account. */
  function Delta(kind: string, amount: real): real {
    if kind == "income" then amount else -amount
  }

  /** `UPDATE accounts SET balance = balance + delta WHERE id = accountId`. */
  function AdjustBalance(rows: seq<Account>, accountId: nat, delta: real): seq<Account> {
    seq(|rows|, i requires 0 <= i < |rows| =>
      if rows[i].id == accountId then rows[i].(balance := rows[i].balance + delta) else rows[i])
  }

  /** `add_transaction`: insert the transaction under a fresh id and move the
      referenced account's balance; nothing else changes. */
  function RecordTransaction(s: Store, kind: string, amount: real, categoryId: nat,
                             description: string, date: Date, accountId: nat): (r: Inserted)
    ensures r.store.transactions
         == s.transactions + [Transaction(r.id, kind, amount, categoryId, description, date, accountId)]
    ensures Valid(s) ==> r.id !in TransactionIds(s.transactions)
    ensures |r.store.accounts| == |s.accounts|
    ensures forall j :: 0 <= j < |s.accounts| ==>
      BalanceEffect(s.accounts[j], r.store.accounts[j], kind, amount, accountId)
    ensures r.store.categories == s.categories && r.store.budgets == s.budgets && r.store.goals == s.goals
    ensures r.store == s.(accounts := r.store.accounts, transactions := r.store.transactions,
                          nextTransactionId := s.nextTransactionId + 1)
    ensures Valid(s) ==> Valid(r.store)
  {
    var id := s.nextTransactionId;
    var row := Transaction(id, kind, amount, categoryId, description, date, accountId);
    var accounts := AdjustBalance(s.accounts, accountId, Delta(kind, amount));
    assert AccountIds(accounts) == AccountIds(s.accounts);
    assert TransactionIds(s.transactions + [row]) == TransactionIds(s.transactions) + [id];
    FreshId(TransactionIds(s.transactions), id);
    Inserted(s.(accounts := accounts, transactions := s.transactions + [row], nextTransactionId := id + 1), id)
  }

  /** Recording a transaction moves the money held over all accounts by the
      transaction's signed amount when its account exists, and leaves it as
      it was when no account has that id. */
  lemma RecordTransactionMovesTotal(s: Store, kind: string, amount: real, categoryId: nat,
                                    description: string, date: Date, accountId: nat)
    requires Valid(s)
    ensures var after := RecordTransaction(s, kind, amount, categoryId, description, date, accountId).store;
      HeldBalance(after.accounts)
        == HeldBalance(s.accounts) + (if accountId in AccountIds(s.accounts) then Delta(kind, amount) else 0.0)
  {
    var after := RecordTransaction(s, kind, amount, categoryId, description, date, accountId).store;
    var before := BalanceColumn(s.accounts);
    if accountId in AccountIds(s.accounts) {
      var k :| 0 <= k < |s.accounts| && AccountIds(s.accounts)[k] == accountId;
      assert BalanceColumn(after.accounts) == before[k := before[k] + Delta(kind, amount)] by {
        forall j | 0 <= j < |s.accounts| && j != k
          ensures s.accounts[j].id != accountId
        {
          assert AccountIds(s.accounts)[j] != AccountIds(s.accounts)[k];
        }
      }
      SumUpdate(before, k, before[k] + Delta(kind, amount));
    } else {
      forall j | 0 <= j < |s.accounts|
        ensures after.accounts[j] == s.accounts[j]
      {
        assert AccountIds(s.accounts)[j] != accountId;
      }
      assert after.accounts == s.accounts;
    }
  }

  /** `add_account`: a new account row under a fresh id. */
  function CreateAccount(s: Store, name: string, balance: real, kind: string): (r: Inserted)
    ensures r.store.accounts == s.accounts + [Account(r.id, name, balance, kind)]
    ensures Valid(s) ==> r.id !in AccountIds(s.accounts)
    ensures r.store.transactions == s.transactions && r.store.categories == s.categories
    ensures r.store.budgets == s.budgets && r.store.goals == s.goals
    ensures r.store == s.(accounts := r.store.accounts, nextAccountId := s.nextAccountId + 1)
    ensures Valid(s) ==> Valid(r.store)
  {
    var id := s.nextAccountId;
    var row := Account(id, name, balance, kind);
    assert AccountIds(s.accounts + [row]) == AccountIds(s.accounts) + [id];
    FreshId(AccountIds(s.accounts), id);
    Inserted(s.(accounts := s.accounts + [row], nextAccountId := id + 1), id)
  }

  /** `add_goal`: a new goal row under a fresh id, open (not completed)
      whatever its saved amount. */
  function CreateGoal(s: Store, name: string, target: real, current: real, icon: string): (r: Inserted)
    ensures r.store.goals == s.goals + [Goal(r.id, name, target, current, icon, None)]
    ensures Valid(s) ==> r.id !in GoalIds(s.goals)
    ensures r.store.accounts == s.accounts && r.store.transactions == s.transactions
    ensures r.store.categories == s.categories && r.store.budgets == s.budgets
    ensures r.store == s.(goals := r.store.goals, nextGoalId := s.nextGoalId + 1)
    ensures Valid(s) ==> Valid(r.store)
  {
    var id := s.nextGoalId;
    var row := Goal(id, name, target, current, icon, None);
    assert GoalIds(s.goals + [row]) == GoalIds(s.goals) + [id];
    FreshId(GoalIds(s.goals), id);
    Inserted(s.(goals := s.goals + [row], nextGoalId := id + 1), id)
  }

  /** `add_budget`, an upsert on (category, month, year): the row with that
      key gets the new limit, or a new row is inserted when there is none.
      Afterwards exactly one row carries the key (when keys were unique
      before), it holds the new limit and the returned id, and every other
      row is as it was. The id default of the proposed row is drawn before
      the conflict is detected, so the id sequence advances in both cases. */
  function UpsertBudget(s: Store, categoryId: nat, limit: real, month: int, year: int): (r: Inserted)
    ensures exists i :: 0 <= i < |r.store.budgets| && r.store.budgets[i] == Budget(r.id, categoryId, limit, month, year)
    ensures UniqueBudgetKeys(s.budgets) ==> UniqueBudgetKeys(r.store.budgets)
    ensures UniqueBudgetKeys(s.budgets) ==>
      forall i :: 0 <= i < |r.store.budgets| && KeyOf(r.store.budgets[i]) == BudgetKey(categoryId, month, year) ==>
        r.store.budgets[i] == Budget(r.id, categoryId, limit, month, year)
    ensures |s.budgets| <= |r.store.budgets| <= |s.budgets| + 1
    ensures (exists j :: 0 <= j < |s.budgets| && KeyOf(s.budgets[j]) == BudgetKey(categoryId, month, year))
         <==> |r.store.budgets| == |s.budgets|
    ensures forall j :: 0 <= j < |s.budgets| ==>
      r.store.budgets[j].id == s.budgets[j].id && KeyOf(r.store.budgets[j]) == KeyOf(s.budgets[j])
    ensures forall j :: 0 <= j < |s.budgets| && KeyOf(s.budgets[j]) != BudgetKey(categoryId, month, year) ==>
      r.store.budgets[j] == s.budgets[j]
    ensures r.store.accounts == s.accounts && r.store.transactions == s.transactions
    ensures r.store.categories == s.categories && r.store.goals == s.goals
    ensures r.store.nextBudgetId == s.nextBudgetId + 1
    ensures r.store == s.(budgets := r.store.budgets, nextBudgetId := s.nextBudgetId + 1)
    ensures Valid(s) ==> Valid(r.store)
  {
    var key := BudgetKey(categoryId, month, year);
    match FindBudget(s.budgets, key)
    case Some(k) =>
      var rows := s.budgets[k := s.budgets[k].(limit := limit)];
      assert BudgetIds(rows) == BudgetIds(s.budgets);
      assert rows[k] == Budget(s.budgets[k].id, categoryId, limit, month, year);
      Inserted(s.(budgets := rows, nextBudgetId := s.nextBudgetId + 1), s.budgets[k].id)
    case None =>
      var id := s.nextBudgetId;
      var row := Budget(id, categoryId, limit, month, year);
      var rows := s.budgets + [row];
      assert BudgetIds(rows) == BudgetIds(s.budgets) + [id];
      FreshId(BudgetIds(s.budgets), id);
      assert rows[|s.budgets|] == row;
      Inserted(s.(budgets := rows, nextBudgetId := id + 1), id)
  }

  /** Repeating the same budget upsert leaves every row as the first one
      left it and returns the same id; only the id sequence moves on. */
  lemma UpsertBudgetIdempotent(s: Store, categoryId: nat, limit: real, month: int, year: int)
    ensures var once := UpsertBudget(s, categoryId, limit, month, year);
      var twice := UpsertBudget(once.store, categoryId, limit, month, year);
      && twice.store == once.store.(nextBudgetId := once.store.nextBudgetId + 1)
      && twice.id == once.id
  {
    var key := BudgetKey(categoryId, month, year);
    var once := UpsertBudget(s, categoryId, limit, month, year);
    match FindBudget(s.budgets, key)
    case Some(k) =>
      assert FindBudget(once.store.budgets, key) == Some(k);
      assert once.store.budgets[k].limit == limit;
      assert once.store.budgets[k := once.store.budgets[k].(limit := limit)] == once.store.budgets;
    case None =>
      assert FindBudget(once.store.budgets, key) == Some(|s.budgets|);
      assert once.store.budgets[|s.budgets| := once.store.budgets[|s.budgets|].(limit := limit)]
          == once.store.budgets;
  }

  /** From an empty store: a new key gets id 1, upserting it again returns 1
      but draws 2, so the next new key gets id 3. */
  lemma UpsertDrawsAnId()
    ensures var empty := Store([], [], [], [], [], 1, 1, 1, 1);
      var first := UpsertBudget(empty, 1, 100.0, 1, 2026);
      var again := UpsertBudget(first.store, 1, 200.0, 1, 2026);
      var other := UpsertBudget(again.store, 2, 50.0, 1, 2026);
      first.id == 1 && again.id == 1 && other.id == 3
  {
    var empty := Store([], [], [], [], [], 1, 1, 1, 1);
    var one := empty.(budgets := [Budget(1, 1, 100.0, 1, 2026)], nextBudgetId := 2);
    var two := empty.(budgets := [Budget(1, 1, 200.0, 1, 2026)], nextBudgetId := 3);
    var three := empty.(budgets := [Budget(1, 1, 200.0, 1, 2026), Budget(3, 2, 50.0, 1, 2026)], nextBudgetId := 4);
    UpsertInserts(empty, 1, 100.0, 1, 2026);
    assert FindBudget(one.budgets, BudgetKey(1, 1, 2026)) == Some(0);
    UpsertUpdates(one, 1, 200.0, 1, 2026, 0);
    assert FindBudget(two.budgets, BudgetKey(2, 1, 2026)) == None;
    UpsertInserts(two, 2, 50.0, 1, 2026);
  }

  /** An upsert whose key no row has inserts under the next sequence value. */
  lemma UpsertInserts(s: Store, categoryId: nat, limit: real, month: int, year: int)
    requires FindBudget(s.budgets, BudgetKey(categoryId, month, year)).None?
    ensures UpsertBudget(s, categoryId, limit, month, year)
         == Inserted(s.(budgets := s.budgets + [Budget(s.nextBudgetId, categoryId, limit, month, year)],
                        nextBudgetId := s.nextBudgetId + 1), s.nextBudgetId)
  {
  }

  /** An upsert whose key row `k` has rewrites that row's limit, returns its
      id, and still draws a sequence value. */
  lemma UpsertUpdates(s: Store, categoryId: nat, limit: real, month: int, year: int, k: nat)
    requires FindBudget(s.budgets, BudgetKey(categoryId, month, year)) == Some(k)
    ensures k < |s.budgets|
    ensures UpsertBudget(s, categoryId, limit, month, year)
         == Inserted(s.(budgets := s.budgets[k := s.budgets[k].(limit := limit)],
                        nextBudgetId := s.nextBudgetId + 1), s.budgets[k].id)
  {
  }

  /** The goal row after its saved amount is set to `current` at time `now`:
      completed (stamped `now`) when the amount reaches the target, open
      otherwise. */
  function WithCurrent(g: Goal, current: real, now: Timestamp): Goal {
    g.(current := current, completedAt := if current >= g.target then Some(now) else None)
  }

  /** `update_goal`: every goal row with the id gets the new saved amount and
      the completion mark the rule gives; the other rows and tables are as
      they were. */
  function UpdateGoal(s: Store, id: nat, current: real, now: Timestamp): (r: Store)
    ensures |r.goals| == |s.goals|
    ensures forall j :: 0 <= j < |s.goals| && s.goals[j].id != id ==> r.goals[j] == s.goals[j]
    ensures forall j :: 0 <= j < |s.goals| && s.goals[j].id == id ==>
      && r.goals[j].id == id && r.goals[j].name == s.goals[j].name
      && r.goals[j].target == s.goals[j].target && r.goals[j].icon == s.goals[j].icon
      && r.goals[j].current == current
      && (r.goals[j].completedAt.Some? <==> current >= s.goals[j].target)
    ensures r.accounts == s.accounts && r.transactions == s.transactions
    ensures r.categories == s.categories && r.budgets == s.budgets
    ensures r == s.(goals := r.goals)
    ensures Valid(s) ==> Valid(r)
  {
    var rows := seq(|s.goals|, i requires 0 <= i < |s.goals| =>
      if s.goals[i].id == id then WithCurrent(s.goals[i], current, now) else s.goals[i]);
    assert GoalIds(rows) == GoalIds(s.goals);
    s.(goals := rows)
  }

  /** `update_budget`: every budget row with the id gets the new limit; keys
      and ids stay, so the table stays valid. */
  function UpdateBudget(s: Store, id: nat, limit: real): (r: Store)
    ensures |r.budgets| == |s.budgets|
    ensures forall j :: 0 <= j < |s.budgets| ==>
      r.budgets[j] == if s.budgets[j].id == id then s.budgets[j].(limit := limit) else s.budgets[j]
    ensures forall j :: 0 <= j < |s.budgets| ==> KeyOf(r.budgets[j]) == KeyOf(s.budgets[j])
    ensures r.accounts == s.accounts && r.transactions == s.transactions
    ensures r.categories == s.categories && r.goals == s.goals
    ensures r == s.(budgets := r.budgets)
    ensures Valid(s) ==> Valid(r)
  {
    var rows := seq(|s.budgets|, i requires 0 <= i < |s.budgets| =>
      if s.budgets[i].id == id then s.budgets[i].(limit := limit) else s.budgets[i]);
    assert BudgetIds(rows) == BudgetIds(s.budgets);
    s.(budgets := rows)
  }
}

=== FILE: totals.dfy ===
/** The dashboard's headline totals: the balance over all accounts and the
    income and expenses of the current month (src/pages/Index.tsx:74-80). */
module Totals {
  import opened RealSums
  import opened Calendar
  import opened DashboardData

  function Balances(accounts: seq<Account>): seq<real>
  {
    seq(|accounts|, i requires 0 <= i < |accounts| => accounts[i].balance)
  }

  /** The total balance: every account's balance added to 0. */
  function TotalBalance(accounts: seq<Account>): real
  {
    Sum(Balances(accounts))
  }

  /** The page's `accounts.reduce((sum, acc) => sum + acc.balance, 0)`: a
      left-to-right pass from 0 that yields the total balance. */
  method ComputeTotalBalance(accounts: seq<Account>) returns (total: real)
    ensures total == TotalBalance(accounts)
    ensures |accounts| == 0 ==> total == 0.0
  {
    total := 0.0;
    var i := 0;
    while i < |accounts|
      invariant 0 <= i <= |accounts|
      invariant total == Sum(Balances(accounts[..i]))
    {
      assert Balances(accounts[..i + 1]) == Balances(accounts[..i]) + [accounts[i].balance];
      SumSnoc(Balances(accounts[..i]), accounts[i].balance);
      total := total + accounts[i].balance;
      i := i + 1;
    }
    assert accounts[..i] == accounts;
  }

  /** Worked case: balances 245680, 520000 and 15000 total exactly 780680. */
  lemma TotalBalanceExample()
    ensures TotalBalance([Account("1", "card", 245680.0, "card"), Account("2", "savings", 520000.0, "savings"),
                          Account("3", "cash", 15000.0, "cash")]) == 780680.0
  {
    var accounts := [Account("1", "card", 245680.0, "card"), Account("2", "savings", 520000.0, "savings"),
                     Account("3", "cash", 15000.0, "cash")];
    assert Balances(accounts) == [245680.0, 520000.0, 15000.0];
  }

  /** The total balance does not depend on the order the accounts are listed in. */
  lemma {:induction false} TotalBalanceOrderFree(accounts: seq<Account>, reordered: seq<Account>)
    requires multiset(accounts) == multiset(reordered)
    ensures TotalBalance(accounts) == TotalBalance(reordered)
    decreases |accounts|
  {
    if |accounts| == 0 {
      assert |multiset(reordered)| == 0;
    } else {
      var x := accounts[0];
      var k := Locate(accounts, reordered);
      var rest := reordered[..k] + reordered[k + 1..];
      TotalBalanceOrderFree(accounts[1..], rest);
      TotalBalanceWithout(reordered, k);
      assert Balances(accounts)[1..] == Balances(accounts[1..]);
    }
  }

  /** Where the first account of `a` sits in a reordering `b`; the rest of
      `b` is then a reordering of the rest of `a`. */
  lemma Locate(a: seq<Account>, b: seq<Account>) returns (k: int)
    requires |a| > 0 && multiset(a) == multiset(b)
    ensures 0 <= k < |b| && b[k] == a[0]
    ensures multiset(a[1..]) == multiset(b[..k] + b[k + 1..])
  {
    var x := a[0];
    assert x in multiset(b);
    k :| 0 <= k < |b| && b[k] == x;
    assert b == b[..k] + [x] + b[k + 1..];
    assert a == [x] + a[1..];
    MultisetCancel(multiset(a[1..]), multiset(b[..k] + b[k + 1..]), x);
  }

  /** Leaving out one account lowers the total by exactly its balance. */
  lemma TotalBalanceWithout(accounts: seq<Account>, k: int)
    requires 0 <= k < |accounts|
    ensures TotalBalance(accounts) == TotalBalance(accounts[..k] + accounts[k + 1..]) + accounts[k].balance
  {
    var bs := Balances(accounts);
    SumRemove(bs, k);
    assert bs[..k] + bs[k + 1..] == Balances(accounts[..k] + accounts[k + 1..]);
  }

  /** True when a transaction has the given direction and its month number
      equals `month`; the year is not compared. */
  predicate CountsIn(t: Transaction, direction: Direction, month: int) {
    t.direction == direction && t.date.month == month
  }

  /** The page's month filter: the transactions of one direction whose month
      number is `month`, in their original order. */
  function MonthTransactions(txs: seq<Transaction>, direction: Direction, month: int): (r: seq<Transaction>)
    ensures |r| <= |txs|
    ensures forall t :: t in r <==> t in txs && CountsIn(t, direction, month)
    ensures multiset(r) <= multiset(txs)
  {
    if |txs| == 0 then []
    else
      var rest := MonthTransactions(txs[1..], direction, month);
      assert txs == [txs[0]] + txs[1..];
      if CountsIn(txs[0], direction, month) then [txs[0]] + rest else rest
  }

  /** The filter keeps every copy of a matching transaction and no copy of
      any other: it is exact as a multiset, not only as a set. */
  lemma {:induction false} MonthTransactionsCounts(txs: seq<Transaction>, direction: Direction, month: int)
    ensures forall t :: multiset(MonthTransactions(txs, direction, month))[t]
                     == if CountsIn(t, direction, month) then multiset(txs)[t] else 0
  {
    if |txs| > 0 {
      MonthTransactionsCounts(txs[1..], direction, month);
      assert txs == [txs[0]] + txs[1..];
    }
  }

  function Amounts(txs: seq<Transaction>): seq<real>
  {
    seq(|txs|, i requires 0 <= i < |txs| => txs[i].amount)
  }

  /** The sum of the amounts of one direction in the month (`monthExpenses`
      with `Expense`, `monthIncome` with `Income`). */
  function MonthFlow(txs: seq<Transaction>, direction: Direction, month: int): real
  {
    Sum(Amounts(MonthTransactions(txs, direction, month)))
  }

  /** Reference definition: every amount whose month number is `month`,
      whatever its direction, added up in one pass. */
  function MonthTurnover(txs: seq<Transaction>, month: int): real
  {
    if |txs| == 0 then 0.0
    else (if txs[0].date.month == month then txs[0].amount else 0.0) + MonthTurnover(txs[1..], month)
  }

  /** Income and expense of a month split the month's transactions between
      them: the two flows together are the month's whole turnover. */
  lemma {:induction false} MonthIncomePlusExpenses(txs: seq<Transaction>, month: int)
    ensures MonthFlow(txs, Income, month) + MonthFlow(txs, Expense, month) == MonthTurnover(txs, month)
  {
    if |txs| > 0 {
      MonthIncomePlusExpenses(txs[1..], month);
      MonthFlowCons(txs, Income, month);
      MonthFlowCons(txs, Expense, month);
    }
  }

  /** One step of a flow: the first transaction adds its amount when it counts. */
  lemma MonthFlowCons(txs: seq<Transaction>, direction: Direction, month: int)
    requires |txs| > 0
    ensures MonthFlow(txs, direction, month)
         == (if CountsIn(txs[0], direction, month) then txs[0].amount else 0.0)
            + MonthFlow(txs[1..], direction, month)
  {
    var rest := MonthTransactions(txs[1..], direction, month);
    if CountsIn(txs[0], direction, month) {
      assert Amounts([txs[0]] + rest) == [txs[0].amount] + Amounts(rest);
      assert ([txs[0].amount] + Amounts(rest))[1..] == Amounts(rest);
    }
  }

  /** A monthly flow of non-negative amounts is non-negative. */
  lemma MonthFlowNonNegative(txs: seq<Transaction>, direction: Direction, month: int)
    requires forall i :: 0 <= i < |txs| ==> txs[i].amount >= 0.0
    ensures MonthFlow(txs, direction, month) >= 0.0
  {
    var picked := MonthTransactions(txs, direction, month);
    forall i | 0 <= i < |picked|
      ensures Amounts(picked)[i] >= 0.0
    {
      assert picked[i] in txs;
    }
    SumNonNegative(Amounts(picked));
  }

  /** The same transactions re-dated into year `year`. */
  function WithYear(txs: seq<Transaction>, year: int): seq<Transaction>
  {
    seq(|txs|, i requires 0 <= i < |txs| => txs[i].(date := txs[i].date.(year := year)))
  }

  /** The month filter compares month numbers only: moving every transaction
      into another year leaves both monthly flows unchanged, so a January of
      last year is counted in this January's figures. */
  lemma {:induction false} MonthFlowIgnoresYear(txs: seq<Transaction>, direction: Direction, month: int, year: int)
    ensures MonthFlow(WithYear(txs, year), direction, month) == MonthFlow(txs, direction, month)
  {
    if |txs| > 0 {
      var moved := WithYear(txs, year);
      assert moved[1..] == WithYear(txs[1..], year);
      MonthFlowIgnoresYear(txs[1..], direction, month, year);
      MonthFlowCons(txs, direction, month);
      MonthFlowCons(moved, direction, month);
    }
  }

  /** A concrete case: an expense of last January and one of this January
      both count toward this January's expenses. */
  lemma LastYearCountsThisMonth()
    ensures MonthFlow([Transaction("1", Expense, 1250.0, "food", "", Date(2025, 1, 7), "card"),
                       Transaction("2", Expense, 3500.0, "fuel", "", Date(2026, 1, 6), "card")],
                      Expense, 1) == 4750.0
  {
    var txs := [Transaction("1", Expense, 1250.0, "food", "", Date(2025, 1, 7), "card"),
                Transaction("2", Expense, 3500.0, "fuel", "", Date(2026, 1, 6), "card")];
    MonthFlowCons(txs, Expense, 1);
    MonthFlowCons(txs[1..], Expense, 1);
  }
}
